=== FILE: README.md ===
# EtabsExtensions core, modelled in Dafny

This project models two slices of the EtabsExtensions application.

**Joint drift.** A `JointDriftItem` is one row of an ETABS "joint drifts"
table. It has a story, a joint label, a unique name, an output case, a
step number and four measurements. Its identity is the value object
`JointDriftId`: story, label, output case and step number. A
`JointDriftList` holds items and selects them by a set of identities. The
`JointDriftCrud` repository validates items with four rules and turns
failures into a `ValidationException`, which groups the messages by
property. It appends items to the first list of the database context and
saves. Two read-side classes are modelled as well:

- the Access connection provider, which opens one OLE DB connection at a
  time;
- the Access repository, which reads distinct output-case names and
  decodes the joint-drift rows of one case.

**To-do.** The four request validators check create, update, bulk-update
and search requests. `TodoService` lists, finds, creates, updates and
deletes to-do items and counts them.

The layout is one module per source file:

| file | module |
|---|---|
| `wrappers.dfy` | `Wrappers` |
| `dotnet_text.dfy` | `DotNetText` |
| `validation.dfy` | `Validation` |
| `joint_drift_id.dfy` | `JointDriftIdentity` |
| `joint_drift_list.dfy` | `JointDriftLists` |
| `joint_drift_validator.dfy` | `JointDriftValidator` |
| `validation_exception.dfy` | `ValidationExceptions` |
| `joint_drift_crud.dfy` | `JointDriftCrud` |
| `access_connection.dfy` | `AccessConnection` |
| `access_joint_drift_repository.dfy` | `AccessJointDriftRepository` |
| `todo_validators.dfy` | `TodoValidators` |
| `todo_service.dfy` | `TodoService` |

- `Wrappers` holds `Option` and `Result`.
- `DotNetText` models the .NET string predicates the code relies on:
  - `string.IsNullOrWhiteSpace`, using the Unicode White_Space characters;
  - `string.Length`, counted in UTF-16 code units.
- `Validation` models FluentValidation's failure list.

How the model represents the source:

- Nullable strings are `Option<string>`.
- Exceptions are `Failure` values.
- The database context is an immutable value. Each operation returns the
  new context.
- The clock, the database's key generator and the OLE DB driver's outcome
  are parameters.
- Doubles are `real`; `DateTime` values are `int` ticks.

Validation messages are FluentValidation's default English messages unless
the source sets its own with `WithMessage`. The library's cascade mode is
`Continue`, so every failing validator of a rule reports. `WithMessage`
covers only the validator just before it. For that reason the search
request's `Take > 0` failure carries the library's message and not the
custom one.

The code has two shapes of joint-drift record, and the model keeps both:

- The domain `JointDriftItem` has nine fields, with an integer label and an
  integer step number. The write side and the validator use it, and the
  validator checks `Label > 0` on that integer label.
- The Access reader builds a twelve-field record with a string label and a
  fractional step number. That does not match the domain constructor. The
  model gives it its own record, `DriftEntry`.

`AddItemsAsync` collects every failure of a batch before it throws, which
reads as an all-or-nothing intent. The code, however, appends the valid items
as it meets them and never removes them. The model follows the code and
states the all-or-nothing version next to it. See Findings.

## Model

| member | source | states |
|---|---|---|
| JointDriftIdentity.NewId | src/Domain/ValueObjects/JointDriftId.cs:15-21 | The identity stores story, label, output case and step number exactly as given. |
| JointDriftIdentity.SequenceEqual | src/Domain/ValueObjects/JointDriftId.cs:23-29 | Comparing the component sequences element by element returns true exactly when the sequences are equal. |
| JointDriftIdentity.Components | src/Domain/ValueObjects/JointDriftId.cs:23-29 | There are four equality components, and the identity can be read back from them, so they carry all of it. |
| JointDriftIdentity.IdEquals | src/Domain/ValueObjects/JointDriftId.cs:23-29 | Component-wise equality of two identities holds exactly when the identities are equal. |
| JointDriftIdentity.IdEqualsIff | src/Domain/ValueObjects/JointDriftId.cs:23-29 | Two identities are equal exactly when all four components are pairwise equal. A null story or case equals only a null. |
| JointDriftIdentity.IdEqualsIsEquivalence | src/Domain/ValueObjects/JointDriftId.cs:23-29 | Identity equality is reflexive, symmetric and transitive, so it is a valid hash-set key. |
| JointDriftIdentity.IdIgnoresMeasurements | src/Domain/Entities/JointDrift/JointDriftList.cs:12 | Items that differ only in unique name or measurements have the same identity. |
| JointDriftLists.NewList | src/Domain/Entities/JointDrift/JointDriftList.cs:7 | A new list holds no items. |
| JointDriftLists.GetItemsByIds | src/Domain/Entities/JointDrift/JointDriftList.cs:9-13 | The result is the list filtered by the requested identities. It holds exactly the items whose identity was requested, each as often as the list holds it, and each unrequested item 0 times. It is no longer than the list. Order is kept by `MatchingIsSubsequence`. |
| JointDriftLists.ContainsIsIdEquals | src/Domain/Entities/JointDrift/JointDriftList.cs:11-12 | An identity is in the hash set built from the requested identities exactly when it equals one of them. |
| JointDriftLists.MatchingMembers | src/Domain/Entities/JointDrift/JointDriftList.cs:12 | An item is in the filtered sequence exactly when it is in the list and its identity is in the set. |
| JointDriftLists.MatchingCounts | src/Domain/Entities/JointDrift/JointDriftList.cs:12 | The filter keeps every requested item as often as the list holds it, and drops every other item entirely. |
| JointDriftLists.MatchingIsSubsequence | src/Domain/Entities/JointDrift/JointDriftList.cs:12 | The filter's result is a subsequence of the list, so list order is kept. |
| JointDriftLists.SubsequenceNoLonger | src/Domain/Entities/JointDrift/JointDriftList.cs:12 | A subsequence is never longer than the sequence it is drawn from. |
| JointDriftLists.RequestOnlyMattersAsSet | src/Domain/Entities/JointDrift/JointDriftList.cs:11 | Two requests with the same identities, in any order and with any repetition, select the same items. |
| JointDriftLists.EmptyRequestYieldsNothing | src/Domain/Entities/JointDrift/JointDriftList.cs:11-12 | Requesting no identities selects no items. |
| JointDriftValidator.Validate | src/Core/JointDrift/JointDriftItemValidator.cs:8-14 | An item is valid exactly when its label is positive, its step number is not negative, and its story and output case are neither null nor blank. At most four failures are reported, no two against the same property, so each rule reports at most once. |
| JointDriftValidator.ValidateReports | src/Core/JointDrift/JointDriftItemValidator.cs:10-13 | The validator reports on Story exactly when the story is null or blank, and on Label exactly when label <= 0. It reports on Step Number exactly when step < 0, and on Output Case exactly when the case is null or blank. Each failure carries the library's message for that rule, and no other property is reported. |
| JointDriftValidator.StepNumberZeroAccepted | src/Core/JointDrift/JointDriftItemValidator.cs:11 | Step number 0 passes its rule, so it never causes a Step Number failure. |
| JointDriftValidator.UnruledFieldsIrrelevant | src/Core/JointDrift/JointDriftItemValidator.cs:8-14 | Unique name and measurements never affect validation. |
| ValidationExceptions.NewValidationException | src/Core/Common/Exceptions/ValidationException.cs:7-11 | The parameterless exception carries the fixed message and an empty error dictionary. |
| ValidationExceptions.GroupBy | src/Core/Common/Exceptions/ValidationException.cs:15-16 | Grouping by property name gives one group per distinct property. Each group holds that property's messages in failure order, and the groups together hold every failure once. |
| ValidationExceptions.ToDictionary | src/Core/Common/Exceptions/ValidationException.cs:17 | The dictionary's keys are the group keys, and each key maps to its group's messages. |
| ValidationExceptions.FromFailures | src/Core/Common/Exceptions/ValidationException.cs:12-18 | The exception's keys are exactly the failing property names. Each key maps to that property's messages in failure order, and no entry is empty. |
| ValidationExceptions.FromFailuresKeepsEveryMessage | src/Core/Common/Exceptions/ValidationException.cs:15-17 | Every failure's message appears under its own property in the exception's dictionary. |
| ValidationExceptions.FromFailuresMessageTotal | src/Core/Common/Exceptions/ValidationException.cs:15-17 | The dictionary, summed over all its keys, holds exactly as many messages as there were failures. |
| JointDriftCrud.AddItem | src/Core/JointDrift/JointDriftCrud.cs:19-33 | Validation comes first: an invalid item fails with the grouped failures and leaves the context unchanged. Otherwise it fails when the set is null ("JointDriftLists DbSet is not initialized.") or there is no list ("No JointDriftList found."). Otherwise the item is appended to the first list and the context is saved once. |
| JointDriftCrud.AddItems | src/Core/JointDrift/JointDriftCrud.cs:35-55 | A null set or an empty set fails before anything is validated. If every item is valid, all of them are appended in order and saved once. If any item fails, the exception holds every item's failures, the valid items stay appended to the tracked list, and nothing is saved. |
| JointDriftCrud.GetAllItems | src/Core/JointDrift/JointDriftCrud.cs:57-63 | A null set fails. Otherwise the items of the first list are returned, or nothing when there is no list. |
| JointDriftCrud.ValidItemsExactly | src/Core/JointDrift/JointDriftCrud.cs:44-51 | Every appended item is a valid item of the batch. Each valid item is appended as often as it occurs in the batch, and no invalid item is appended. |
| JointDriftCrud.WholeBatchAppendedIffAllValid | src/Core/JointDrift/JointDriftCrud.cs:44-51 | The whole batch is appended exactly when every item is valid. |
| JointDriftCrud.ValidItemsInOrder | src/Core/JointDrift/JointDriftCrud.cs:44-51 | The appended items keep batch order: they form a subsequence of the batch. |
| JointDriftCrud.NoFailuresMeansAllAppended | src/Core/JointDrift/JointDriftCrud.cs:44-54 | A batch collects no failures exactly when every item is valid, and then every item is appended, in order. |
| JointDriftCrud.AddThenGetAll | src/Core/JointDrift/JointDriftCrud.cs:28-32 | After a successful single add, reading all items returns the earlier items followed by the new one. |
| JointDriftCrud.AddItemsAtomic | src/Core/JointDrift/JointDriftCrud.cs:35-55 | Corrected batch add: a failing batch leaves the context exactly as it was. A valid batch behaves as in the code. |
| JointDriftCrud.AtomicAgreesOnValidBatches | src/Core/JointDrift/JointDriftCrud.cs:44-54 | The code and the corrected version agree on every batch in which no item fails. |
| JointDriftCrud.FailedBatchLeaksIntoNextSave | src/Core/JointDrift/JointDriftCrud.cs:52-54 | For any list and any valid item v and invalid item, the batch [v, invalid] fails but leaves v appended and unsaved. The next successful single add of v then saves v twice. The corrected version leaves the context unchanged. |
| JointDriftCrud.SamplesShowTheLeak | src/Core/JointDrift/JointDriftItemValidator.cs:10-13 | The sample item passes all four rules, and the same item with label 0 fails. So the sample batch meets the premises of the leak. |
| AccessConnection.ConnectionString | src/Infrastructure/Import/AccessConnectionProvider.cs:19 | The connection string starts with the ACE 12.0 provider prefix and has the prefix, path and suffix lengths. |
| AccessConnection.DataSourceRoundTrip | src/Infrastructure/Import/AccessConnectionProvider.cs:19 | The file path can be recovered from the connection string. |
| AccessConnection.ConnectionStringInjective | src/Infrastructure/Import/AccessConnectionProvider.cs:19 | Different file paths give different connection strings. |
| AccessConnection.NewProvider | src/Infrastructure/Import/AccessConnectionProvider.cs:10-11 | A new provider holds no connection, so `GetConnection` returns null and the provider is not connected. |
| AccessConnection.IsConnected | src/Infrastructure/Import/AccessConnectionProvider.cs:11 | Without a connection the provider is not connected. With one, it is connected exactly when that connection's state is Open. |
| AccessConnection.GetConnection | src/Infrastructure/Import/AccessConnectionProvider.cs:42 | The provider's current connection is returned in any state, including Closed or Broken. It is returned and open exactly when the provider is connected. |
| AccessConnection.OpenThenGetConnection | src/Infrastructure/Import/AccessConnectionProvider.cs:19-22 | After a successful open, the connection handed out is the open connection built for that file. |
| AccessConnection.OpenedConnectionIdentifiesFile | src/Infrastructure/Import/AccessConnectionProvider.cs:19-22 | Two successful opens that hand out the same connection opened the same file. |
| AccessConnection.GetConnectionWhileNotOpen | src/Infrastructure/Import/AccessConnectionProvider.cs:42 | A connection that has left the Open state is still handed out, while the provider reports itself disconnected. |
| AccessConnection.OpenFile | src/Infrastructure/Import/AccessConnectionProvider.cs:13-30 | Opening while connected fails and changes nothing. Otherwise the result is the driver's outcome, and on success the provider holds an open connection to that file's connection string. It returns true exactly when it turned a disconnected provider into a connected one. |
| AccessConnection.Close | src/Infrastructure/Import/AccessConnectionProvider.cs:32-40 | After closing, no connection is held. Closing without a connection changes nothing. |
| AccessConnection.Dispose | src/Infrastructure/Import/AccessConnectionProvider.cs:44-49 | After disposal, no connection is held. |
| AccessConnection.CloseIdempotent | src/Infrastructure/Import/AccessConnectionProvider.cs:32-40 | Closing twice is the same as closing once. |
| AccessConnection.SecondOpenFails | src/Infrastructure/Import/AccessConnectionProvider.cs:15-16 | After a successful open, a second open of any file fails and keeps the first connection. |
| AccessConnection.CloseThenReopen | src/Infrastructure/Import/AccessConnectionProvider.cs:32-40 | After closing, a new open succeeds whenever the driver opens the file. |
| AccessJointDriftRepository.TextField | src/Infrastructure/Import/Repositories/JointDrift/AccessJointDriftRepository.cs:61-66 | A missing column fails. A null cell reads as the empty string. Any other cell reads as its text. |
| AccessJointDriftRepository.NumberField | src/Infrastructure/Import/Repositories/JointDrift/AccessJointDriftRepository.cs:67-72 | A missing column or non-numeric text fails. A null cell reads as 0, a number reads as its value, and numeric text reads as the number it parses to. |
| AccessJointDriftRepository.DecodeRow | src/Infrastructure/Import/Repositories/JointDrift/AccessJointDriftRepository.cs:60-73 | A row decodes exactly when all twelve columns are present and the numeric ones are null or numeric. Each field is then read from its column, including the double-spaced "Drift  X". |
| AccessJointDriftRepository.GetUniqueCaseNames | src/Infrastructure/Import/Repositories/JointDrift/AccessJointDriftRepository.cs:20-43 | Without an open connection the call fails. Otherwise it returns the non-null case names in reader order, skipping nulls. A non-text cell or a reader failure is an error. |
| AccessJointDriftRepository.NonNullTextsBounds | src/Infrastructure/Import/Repositories/JointDrift/AccessJointDriftRepository.cs:31-35 | The names are at most as many as the rows. Every name comes from a non-null cell, and every non-null cell's text is among the names. They are pairwise distinct when the store's rows are. |
| AccessJointDriftRepository.GetEntriesByCase | src/Infrastructure/Import/Repositories/JointDrift/AccessJointDriftRepository.cs:45-83 | Without an open connection the call fails. Otherwise every row is decoded in order, and the first undecodable row or reader failure is an error. When the store honours the filter, every entry has the requested case. |
| AccessJointDriftRepository.AllNullRowDecodesToDefaults | src/Infrastructure/Import/Repositories/JointDrift/AccessJointDriftRepository.cs:60-73 | A row of null cells decodes to empty texts and zeros. |
| DotNetText.IsNullOrWhiteSpace | src/Core/Validators/TodoItemValidator.cs:27 | True exactly for null and for strings made only of Unicode white space, the empty string included. |
| DotNetText.Utf16Length | src/Core/Validators/TodoItemValidator.cs:15 | The UTF-16 length lies between the character count and twice it. |
| DotNetText.Utf16LengthOfChar | src/Core/Validators/TodoItemValidator.cs:15 | A single character takes two UTF-16 units beyond U+FFFF and one otherwise. |
| DotNetText.Utf16LengthAppend | src/Core/Validators/TodoItemValidator.cs:15 | The UTF-16 length of a concatenation is the sum of the lengths, so a string's length is the sum of its characters' units. |
| DotNetText.Utf16LengthOfAstral | src/Core/Validators/TodoItemValidator.cs:15 | For text made only of characters beyond U+FFFF, the UTF-16 length is twice the character count. |
| DotNetText.Utf16LengthOfBmp | src/Core/Validators/TodoItemValidator.cs:15 | For text without characters beyond U+FFFF, the UTF-16 length is the character count. |
| TodoValidators.BeValidTitle | src/Core/Validators/TodoItemValidator.cs:25-28 | A title is valid exactly when it is not null and not made only of white space. |
| TodoValidators.ContainOnlyPositiveIds | src/Core/Validators/TodoItemValidator.cs:75-78 | True exactly when every id is positive. |
| TodoValidators.BeValidSortField | src/Core/Validators/TodoItemValidator.cs:107-111 | True exactly for one of CreatedAt, Title, IsCompleted and CompletedAt, compared case-sensitively. |
| TodoValidators.TitleRules | src/Core/Validators/TodoItemValidator.cs:12-18 | The title fails "required" exactly when it is blank, "too long" exactly when it exceeds 200 UTF-16 units, and "invalid" exactly when it is blank. No other failure is reported, and none is reported twice. |
| TodoValidators.DescriptionRules | src/Core/Validators/TodoItemValidator.cs:20-22 | The description fails exactly when it exceeds 1000 UTF-16 units, and then only with the length message, once. A null description passes. |
| TodoValidators.ValidateCreate | src/Core/Validators/TodoItemValidator.cs:8-29 | A create request is valid exactly when the title is non-blank and at most 200 units and the description at most 1000. Each message is reported exactly under its condition. Every failure is one of the four title and description messages, and none is reported twice. |
| TodoValidators.ValidateUpdate | src/Core/Validators/TodoItemValidator.cs:34-59 | Valid exactly when the id is positive and the create rules hold for title and description. The id message is reported exactly when the id is not positive, and only Id, Title and Description are reported. Every failure is the id message or one of the create messages, and none is reported twice. |
| TodoValidators.ValidateUpdateReports | src/Core/Validators/TodoItemValidator.cs:41-51 | Each title and description message of an update is reported exactly under the same condition as for a create. |
| TodoValidators.ValidateBulkUpdate | src/Core/Validators/TodoItemValidator.cs:64-79 | Valid exactly when the list is non-empty and every id is positive. Each of the two messages is reported exactly when its condition fails. No other failure is reported, and none is reported twice. |
| TodoValidators.ValidateSearch | src/Core/Validators/TodoItemValidator.cs:84-105 | Valid exactly when skip >= 0, 0 < take <= 1000, the sort field is allowed, and, when both dates are given, created-after is strictly before created-before. Every failure is one of the five search messages, on Skip, Take, SortBy or CreatedAfter, and none is reported twice. |
| TodoValidators.ValidateSearchReports | src/Core/Validators/TodoItemValidator.cs:88-95 | The Skip message is reported exactly when skip < 0. The library's Take message is reported exactly when take <= 0, and the custom range message exactly when take > 1000. |
| TodoValidators.ValidateSearchReportsSortAndRange | src/Core/Validators/TodoItemValidator.cs:97-104 | The SortBy message is reported exactly when the sort field is not one of the four. The date-range message is reported exactly when both dates are given and created-after is not strictly before created-before. |
| TodoValidators.DefaultSearchIsValid | src/Core/DTOs/CreateTodoItemRequest.cs:64-74 | The default search request (skip 0, take 50, sort by CreatedAt) passes validation. |
| TodoValidators.WhiteSpaceTitleRejected | src/Core/Validators/TodoItemValidator.cs:12-18 | A title of white space fails both the required rule and the custom rule. |
| TodoValidators.AstralTitleTooLong | src/Core/Validators/TodoItemValidator.cs:15-16 | A title of 101 characters beyond U+FFFF takes 202 UTF-16 units and fails the length rule. |
| TodoValidators.TitleLengthBoundary | src/Core/Validators/TodoItemValidator.cs:15-16 | For titles without characters beyond U+FFFF, the length rule passes exactly when the title has at most 200 characters. |
| TodoService.InsertNewestFirst | src/Infrastructure/Services/TodoService.cs:19 | Inserting keeps the list sorted newest first, and the result is a permutation of the list plus the new item. |
| TodoService.GetAll | src/Infrastructure/Services/TodoService.cs:16-22 | The result lists every stored item exactly once, sorted by creation time, newest first, and nothing else. |
| TodoService.GetById | src/Infrastructure/Services/TodoService.cs:24-29 | It returns nothing exactly when no stored item has that id. Otherwise it returns a stored item with that id. |
| TodoService.Create | src/Infrastructure/Services/TodoService.cs:31-39 | A create with an explicit id that is already used fails. Otherwise the item is stored under its id, or under the generated id when its id is 0. It gets the current time as creation time, and no other item changes. |
| TodoService.NextCompletedAt | src/Infrastructure/Services/TodoService.cs:55-60 | Marking an item completed sets the completion time only if none was set; an existing one is kept. Marking it incomplete clears the time. |
| TodoService.Update | src/Infrastructure/Services/TodoService.cs:41-67 | A missing id fails. Otherwise the title, the completion flag and the description are replaced; a blank description is stored as empty. Id and creation time are kept, and no other item changes. |
| TodoService.Delete | src/Infrastructure/Services/TodoService.cs:69-82 | A missing id fails. Otherwise exactly that item is removed and the result is true. |
| TodoService.TotalCount | src/Infrastructure/Services/TodoService.cs:84-87 | Every stored item counts once, whether or not it is completed: the total is the number of completed keys plus the number of open ones. |
| TodoService.CompletedCount | src/Infrastructure/Services/TodoService.cs:84-92 | The completed count is the number of stored items marked completed. It never exceeds the total count, and the two are equal exactly when every item is completed. |
| TodoService.DeleteNeverReturnsFalse | src/Infrastructure/Services/TodoService.cs:73-81 | Delete either fails on a missing id or returns true. It never returns false. |
| TodoService.UpdateCompletionIsStable | src/Infrastructure/Services/TodoService.cs:55-60 | Updating an item that is already completed, as completed, again keeps its first completion time. |
| TodoService.UpdateCounts | src/Infrastructure/Services/TodoService.cs:41-67 | Update keeps the total count. The completed set changes only at the updated id, following its new flag. |

## Left out

- Database and file I/O are not modelled: Entity Framework, SQLite, OLE DB and Access. `SaveChangesAsync` is modelled only as a snapshot of the lists plus a save counter.
- Async execution, cancellation tokens and the console logging in the Access repository are not modelled.
- The desktop UI, view models, converters, dependency-injection wiring, AutoMapper profiles, DTO display helpers and `JointDriftService` are outside the core.
- `JointDriftException` and the domain events are not modelled, because the modelled code paths do not raise them.
- `GetHashCode` is not modelled. The hash set in `GetItemsByIds` is modelled as a mathematical set of identities, which is sound because identity equality is an equivalence.
- The `ValueObject` base class is not part of this model. Its type and null checks in `Equals` are not modelled; only the component comparison is.
- `GetItemsByIds` returns a deferred LINQ query. The model evaluates it eagerly against the list at the time of the call.
- `CloseAsync` is assumed to succeed. A driver exception during close is not modelled.
- `OpenFile` replaces a connection that is not open (e.g. broken) without disposing it. Disposal of the old object is not tracked.
- Column lookup is an exact match on the column name. The data reader's `GetOrdinal` falls back to a case-insensitive match, so a column spelled `story` is found by the reader but reported missing by `TextField`, `NumberField` and `DecodeRow`.
- Culture-specific number formatting and parsing are not modelled. A text cell carries its parse result as a parameter, and a number cell carries its display text.
- `AccessJointDriftRepository.GetUniqueCaseNames`: `SELECT DISTINCT` is owned by the store. Distinct names are proved under the `DistinctValues` assumption on the rows, not derived.
- `AccessJointDriftRepository.GetEntriesByCase`: the `WHERE` filter is owned by the store and compares case-insensitively in Access. The model states the case of each entry only under the `HonoursCaseFilter` assumption.
- `GetPendingCountAsync`, `GetRecentAsync` and `BulkUpdateCompletionStatusAsync` are declared in `ITodoService`, but `TodoService` does not implement them, so they are not modelled.
- `TodoValidators.ValidateBulkUpdate`: a null id list is not modelled; the list is always present.
- The search term, the completion filter and the sort direction carry no validation rule and are only carried along.
- The creation and completion times come from a clock parameter. The key that the database generates for id 0 is a parameter too.
- Thirty-two-bit integer widths are not modelled, because none of the modelled code does arithmetic on them.
- The order of to-do items with equal creation times is left unspecified.
- `TodoService.Delete`: the interface comment promises false for a missing item, but the code throws. The model follows the code.

## Findings

| source | as written | input that shows it | evidently intended | confidence | as-written member | corrected member |
|---|---|---|---|---|---|---|
| src/Core/JointDrift/JointDriftCrud.cs:44-54 | The batch add appends every valid item to the tracked first list before it throws for the invalid ones. It skips the save but never removes them, so the next successful save persists items from a batch that was rejected. | The batch [SampleValid(), SampleInvalid()], where the second item has label 0 (`JointDriftCrud.SamplesShowTheLeak`), fails. A later valid single add then saves both valid items. | A rejected batch leaves the list unchanged (all-or-nothing). | medium, not executed | JointDriftCrud.FailedBatchLeaksIntoNextSave | JointDriftCrud.AddItemsAtomic |

=== FILE: access_connection.dfy ===
/** `AccessConnectionProvider`: owns at most one OLE DB connection to an Access
    file. The provider is a value holding the current connection (or null);
    the outcome of the driver's open is passed in, as the I/O itself is not
    modelled. */
module AccessConnection {
  import opened Wrappers

  /** `System.Data.ConnectionState`. */
  datatype ConnectionState = Closed | Open | Connecting | Executing | Fetching | Broken

  /** An `OleDbConnection`: its connection string and its current state. */
  datatype Connection = Connection(connectionString: string, state: ConnectionState)

  datatype Provider = Provider(connection: Option<Connection>)

  /** `InvalidOperationException` thrown by `OpenAsync`. */
  datatype ProviderError = AlreadyOpen

  const ConnectionStringPrefix := "Provider=Microsoft.ACE.OLEDB.12.0;Data Source="
  const ConnectionStringSuffix := ";Persist Security Info=False;"

  /** The ACE OLE DB connection string for an Access file. */
  function ConnectionString(filePath: string): (cs: string)
    ensures |cs| == |ConnectionStringPrefix| + |filePath| + |ConnectionStringSuffix|
    ensures cs[..|ConnectionStringPrefix|] == ConnectionStringPrefix
  {
    ConnectionStringPrefix + filePath + ConnectionStringSuffix
  }

  /** The data source written into the connection string is the file path
      given, so distinct files give distinct connection strings. */
  lemma DataSourceRoundTrip(filePath: string)
    ensures ConnectionString(filePath)[|ConnectionStringPrefix|..|ConnectionStringPrefix| + |filePath|] == filePath
  {
    var cs := ConnectionString(filePath);
    assert cs == ConnectionStringPrefix + filePath + ConnectionStringSuffix;
    assert (ConnectionStringPrefix + filePath)[|ConnectionStringPrefix|..] == filePath;
  }

  lemma ConnectionStringInjective(a: string, b: string)
    requires ConnectionString(a) == ConnectionString(b)
    ensures a == b
  {
    DataSourceRoundTrip(a);
    DataSourceRoundTrip(b);
  }

  /** A provider that has never opened anything. */
  function NewProvider(): (p: Provider)
    ensures p.connection.None? && GetConnection(p).None?
    ensures !IsConnected(p)
  {
    Provider(None)
  }

  /** `IsConnected`: a connection exists and it is open; a connection that
      is closed, still connecting, busy or broken does not count. */
  function IsConnected(p: Provider): (b: bool)
    ensures p.connection.None? ==> !b
    ensures p.connection.Some? ==> (b <==> p.connection.value.state == Open)
  {
    p.connection.Some? && p.connection.value.state == Open
  }

  /** `GetConnection`: the current connection, whatever its state, so a
      connection that is not open can be handed out; the provider is a
      value, so reading it changes nothing. */
  function GetConnection(p: Provider): (c: Option<Connection>)
    ensures c == p.connection
    ensures c.Some? && c.value.state == Open <==> IsConnected(p)
    ensures c.None? ==> !IsConnected(p)
  {
    p.connection
  }

  /** After a successful open, the connection handed out is the open
      connection to that file. */
  lemma OpenThenGetConnection(p: Provider, filePath: string)
    requires !IsConnected(p)
    ensures GetConnection(OpenFile(p, filePath, true).0) == Some(Connection(ConnectionString(filePath), Open))
  {
  }

  /** The connection a successful open hands out identifies the file: two
      opens that hand out the same connection opened the same file. */
  lemma OpenedConnectionIdentifiesFile(p: Provider, pathA: string, pathB: string)
    requires !IsConnected(p)
    requires GetConnection(OpenFile(p, pathA, true).0) == GetConnection(OpenFile(p, pathB, true).0)
    ensures pathA == pathB
  {
    ConnectionStringInjective(pathA, pathB);
  }

  /** A provider whose connection has dropped out of the Open state still
      hands that connection out while reporting itself disconnected, which
      is why callers re-check the state. */
  lemma GetConnectionWhileNotOpen(p: Provider)
    requires p.connection.Some? && p.connection.value.state != Open
    ensures GetConnection(p) == p.connection && GetConnection(p).Some?
    ensures !IsConnected(p)
  {
  }

  /** `OpenAsync`. Opening while connected throws and changes nothing.
      Otherwise a new connection replaces the field; when the driver opens
      it (`driverOpens`) the call returns true, else the connection is
      disposed, the field is nulled and the call returns false. */
  function OpenFile(p: Provider, filePath: string, driverOpens: bool): (r: (Provider, Result<bool, ProviderError>))
    ensures IsConnected(p) ==> r == (p, Failure(AlreadyOpen))
    ensures !IsConnected(p) ==> r.1 == Success(driverOpens)
    ensures !IsConnected(p) && driverOpens ==>
      IsConnected(r.0) && r.0.connection.value.connectionString == ConnectionString(filePath)
    ensures !IsConnected(p) && !driverOpens ==> r.0.connection.None?
    ensures r.1 == Success(true) <==> IsConnected(r.0) && !IsConnected(p)
  {
    if IsConnected(p) then (p, Failure(AlreadyOpen))
    else if driverOpens then (Provider(Some(Connection(ConnectionString(filePath), Open))), Success(true))
    else (Provider(None), Success(false))
  }

  /** `CloseAsync`: an existing connection is closed, disposed and nulled; with
      no connection nothing happens. */
  function Close(p: Provider): (q: Provider)
    ensures q.connection.None? && !IsConnected(q)
    ensures p.connection.None? ==> q == p
  {
    if p.connection.Some? then Provider(None) else p
  }

  /** `Dispose`: the connection, if any, is disposed and always nulled. */
  function Dispose(p: Provider): (q: Provider)
    ensures q.connection.None? && !IsConnected(q)
  {
    Provider(None)
  }

  /** Closing is idempotent. */
  lemma CloseIdempotent(p: Provider)
    ensures Close(Close(p)) == Close(p)
  {
  }

  /** Connection exclusivity: a second open without a close in between fails
      and the first connection stays open, whatever the second file. */
  lemma SecondOpenFails(p: Provider, pathA: string, pathB: string, driverOpens: bool)
    requires !IsConnected(p)
    ensures var (p1, r1) := OpenFile(p, pathA, true);
            var (p2, r2) := OpenFile(p1, pathB, driverOpens);
            r1 == Success(true) && r2 == Failure(AlreadyOpen) && p2 == p1 &&
            IsConnected(p2) && p2.connection.value.connectionString == ConnectionString(pathA)
  {
  }

  /** After a close the provider can open again. */
  lemma CloseThenReopen(p: Provider, filePath: string)
    ensures OpenFile(Close(p), filePath, true).1 == Success(true)
  {
  }
}

=== FILE: access_joint_drift_repository.dfy ===
/** The read-side `AccessJointDriftRepository`: two queries against the Access
    table "Joint Drifts", each decoded from a data reader. The reader is
    abstracted as the rows the store produces, in reader order, followed
    optionally by an OLE DB failure raised while reading. */
module AccessJointDriftRepository {
  import opened Wrappers
  import opened AccessConnection

  /** A reader cell: DB null, a text value (with the number `Convert.ToDouble`
      would parse from it, if any) or a numeric value (with its string form). */
  datatype Cell = DbNull | Text(text: string, parsed: Option<real>) | Number(value: real, display: string)

  /** A row of `SELECT *`, by column name. */
  type Row = map<string, Cell>

  /** What the data reader yields: rows in reader order, then possibly an
      `OleDbException` (execution or a later read failed). */
  datatype Reader<T> = Reader(rows: seq<T>, failure: Option<string>)

  datatype ReadError =
    | NotOpen              // InvalidOperationException before querying
    | QueryFailed(message: string)  // OleDbException, rethrown
    | ColumnMissing(column: string) // IndexOutOfRangeException from reader[column]
    | NotNumeric(column: string)    // Convert.ToDouble rejects the cell
    | NotText                       // GetString on a non-text cell

  /** The literal column names of the legacy table ("Drift  X" has two spaces). */
  const StoryColumn := "Story"
  const LabelColumn := "Label"
  const UniqueNameColumn := "Unique Name"
  const OutputCaseColumn := "Output Case"
  const CaseTypeColumn := "Case Type"
  const StepTypeColumn := "Step Type"
  const StepNumberColumn := "Step Number"
  const StepLabelColumn := "Step Label"
  const DispXColumn := "Disp X"
  const DispYColumn := "Disp Y"
  const DriftXColumn := "Drift  X"
  const DriftYColumn := "Drift Y"

  const TextColumns := {StoryColumn, LabelColumn, UniqueNameColumn, OutputCaseColumn,
                        CaseTypeColumn, StepTypeColumn, StepLabelColumn}
  const NumericColumns := {StepNumberColumn, DispXColumn, DispYColumn, DriftXColumn, DriftYColumn}

  /** The record the reader builds: every text column as a string, the step
      number and the measurements as doubles. */
  datatype DriftEntry = DriftEntry(
    story: string,
    jointLabel: string,
    uniqueName: string,
    outputCase: string,
    caseType: string,
    stepType: string,
    stepNumber: real,
    stepLabel: string,
    dispX: real,
    dispY: real,
    driftX: real,
    driftY: real)

  /** `cell?.ToString()`: a DB null prints as "". */
  function CellText(c: Cell): string {
    match c
    case DbNull => ""
    case Text(s, _) => s
    case Number(_, d) => d
  }

  /** `reader[column]?.ToString()`. */
  function TextField(row: Row, column: string): (r: Result<string, ReadError>)
    ensures r.Success? <==> column in row
    ensures r.Success? ==> r.value == CellText(row[column])
    ensures column in row && row[column] == DbNull ==> r == Success("")
  {
    if column !in row then Failure(ColumnMissing(column)) else Success(CellText(row[column]))
  }

  /** A cell `Convert.ToDouble` accepts. */
  predicate Numeric(c: Cell) {
    c.Number? || (c.Text? && c.parsed.Some?)
  }

  /** `reader[column] != DBNull.Value ? Convert.ToDouble(reader[column]) : 0.0`. */
  function NumberField(row: Row, column: string): (r: Result<real, ReadError>)
    ensures r.Success? <==> column in row && (row[column] == DbNull || Numeric(row[column]))
    ensures column in row && row[column] == DbNull ==> r == Success(0.0)
    ensures column in row && row[column].Number? ==> r == Success(row[column].value)
    ensures column in row && row[column].Text? ==>
      r == (if row[column].parsed.Some? then Success(row[column].parsed.value) else Failure(NotNumeric(column)))
  {
    if column !in row then Failure(ColumnMissing(column))
    else match row[column]
      case DbNull => Success(0.0)
      case Number(v, _) => Success(v)
      case Text(_, parsed) => if parsed.Some? then Success(parsed.value) else Failure(NotNumeric(column))
  }

  /** Every column decodes: text columns only need to exist, numeric ones
      must also be null or convertible. */
  predicate Decodable(row: Row) {
    && (forall c :: c in TextColumns ==> c in row)
    && (forall c :: c in NumericColumns ==> c in row && (row[c] == DbNull || Numeric(row[c])))
  }

  /** One row to one entry, fields read in constructor-argument order, so the
      first unreadable column is the one reported. */
  function DecodeRow(row: Row): (r: Result<DriftEntry, ReadError>)
    ensures r.Success? <==> Decodable(row)
    ensures r.Success? ==>
      && r.value.story == CellText(row[StoryColumn])
      && r.value.jointLabel == CellText(row[LabelColumn])
      && r.value.uniqueName == CellText(row[UniqueNameColumn])
      && r.value.outputCase == CellText(row[OutputCaseColumn])
      && r.value.caseType == CellText(row[CaseTypeColumn])
      && r.value.stepType == CellText(row[StepTypeColumn])
      && r.value.stepLabel == CellText(row[StepLabelColumn])
      && r.value.stepNumber == NumberField(row, StepNumberColumn).value
      && r.value.dispX == NumberField(row, DispXColumn).value
      && r.value.dispY == NumberField(row, DispYColumn).value
      && r.value.driftX == NumberField(row, DriftXColumn).value
      && r.value.driftY == NumberField(row, DriftYColumn).value
  {
    var story :- TextField(row, StoryColumn);
    var jointLabel :- TextField(row, LabelColumn);
    var uniqueName :- TextField(row, UniqueNameColumn);
    var outputCase :- TextField(row, OutputCaseColumn);
    var caseType :- TextField(row, CaseTypeColumn);
    var stepType :- TextField(row, StepTypeColumn);
    var stepNumber :- NumberField(row, StepNumberColumn);
    var stepLabel :- TextField(row, StepLabelColumn);
    var dispX :- NumberField(row, DispXColumn);
    var dispY :- NumberField(row, DispYColumn);
    var driftX :- NumberField(row, DriftXColumn);
    var driftY :- NumberField(row, DriftYColumn);
    Success(DriftEntry(story, jointLabel, uniqueName, outputCase, caseType, stepType,
                       stepNumber, stepLabel, dispX, dispY, driftX, driftY))
  }

  /** The connection the repository may query: present and open. */
  predicate ConnectionOpen(p: Provider) {
    var c := GetConnection(p);
    c.Some? && c.value.state == Open
  }

  /** Reference definition: the non-null cells of the case-name column, in
      reader order. */
  function NonNullTexts(cells: seq<Cell>): seq<string> {
    if |cells| == 0 then []
    else
      var last := cells[|cells| - 1];
      NonNullTexts(cells[..|cells| - 1]) + (if last.Text? then [last.text] else [])
  }

  /** `GetString` can read every non-null cell. */
  predicate AllText(cells: seq<Cell>) {
    forall i :: 0 <= i < |cells| ==> cells[i].DbNull? || cells[i].Text?
  }

  /** `GetUniqueCaseNamesAsync`: refuses a closed connection before querying,
      skips DB nulls, keeps the other values in reader order, and returns
      nothing at all when the reader fails. */
  method GetUniqueCaseNames(p: Provider, reader: Reader<Cell>) returns (r: Result<seq<string>, ReadError>)
    ensures !ConnectionOpen(p) ==> r == Failure(NotOpen)
    ensures r.Success? <==> ConnectionOpen(p) && AllText(reader.rows) && reader.failure.None?
    ensures r.Success? ==> r.value == NonNullTexts(reader.rows) && |r.value| <= |reader.rows|
    ensures ConnectionOpen(p) && AllText(reader.rows) && reader.failure.Some? ==>
      r == Failure(QueryFailed(reader.failure.value))
  {
    if !ConnectionOpen(p) {
      return Failure(NotOpen);
    }
    var caseNames: seq<string> := [];
    var i := 0;
    while i < |reader.rows|
      invariant 0 <= i <= |reader.rows|
      invariant AllText(reader.rows[..i])
      invariant caseNames == NonNullTexts(reader.rows[..i])
    {
      var cell := reader.rows[i];
      assert reader.rows[..i + 1][..i] == reader.rows[..i];
      if cell.Number? {
        return Failure(NotText);
      }
      if !cell.DbNull? {
        caseNames := caseNames + [cell.text];
      }
      i := i + 1;
    }
    assert reader.rows[..i] == reader.rows;
    if reader.failure.Some? {
      return Failure(QueryFailed(reader.failure.value));
    }
    NonNullTextsBounds(reader.rows);
    return Success(caseNames);
  }

  /** What `SELECT DISTINCT` promises: no value appears in two rows. */
  predicate DistinctValues(cells: seq<Cell>) {
    forall i, j :: 0 <= i < j < |cells| && cells[i].Text? && cells[j].Text? ==> cells[i].text != cells[j].text
  }

  /** No more names than rows read, every name is a value that was read, and
      distinct values give distinct names. */
  lemma {:induction false} NonNullTextsBounds(cells: seq<Cell>)
    ensures |NonNullTexts(cells)| <= |cells|
    ensures DistinctValues(cells) ==>
      forall i, j :: 0 <= i < j < |NonNullTexts(cells)| ==> NonNullTexts(cells)[i] != NonNullTexts(cells)[j]
    ensures forall s :: s in NonNullTexts(cells) ==> exists i :: 0 <= i < |cells| && cells[i].Text? && cells[i].text == s
    ensures forall i :: 0 <= i < |cells| && cells[i].Text? ==> cells[i].text in NonNullTexts(cells)
  {
    if |cells| > 0 {
      var front := cells[..|cells| - 1];
      NonNullTextsBounds(front);
      var last := cells[|cells| - 1];
      forall i | 0 <= i < |cells| && cells[i].Text? ensures cells[i].text in NonNullTexts(cells) {
        if i < |front| {
          assert front[i] == cells[i];
        }
      }
      forall s | s in NonNullTexts(cells)
        ensures exists i :: 0 <= i < |cells| && cells[i].Text? && cells[i].text == s
      {
        if s in NonNullTexts(front) {
          var i :| 0 <= i < |front| && front[i].Text? && front[i].text == s;
          assert cells[i] == front[i];
        } else {
          assert cells[|cells| - 1].Text? && cells[|cells| - 1].text == s;
        }
      }
      if DistinctValues(cells) && last.Text? {
        assert DistinctValues(front) by {
          forall i, j | 0 <= i < j < |front| && front[i].Text? && front[j].Text?
            ensures front[i].text != front[j].text
          {
            assert front[i] == cells[i] && front[j] == cells[j];
          }
        }
        forall s | s in NonNullTexts(front) ensures s != last.text {
          var i :| 0 <= i < |front| && front[i].Text? && front[i].text == s;
          assert cells[i] == front[i];
        }
        var ns := NonNullTexts(front);
        assert NonNullTexts(cells) == ns + [last.text];
        forall i, j | 0 <= i < j < |ns| + 1 ensures (ns + [last.text])[i] != (ns + [last.text])[j] {
          if j == |ns| {
            assert ns[i] in ns;
          }
        }
      }
    }
  }

  /** Reference definition: the rows the store returns for a parameterised
      `WHERE [Output Case] = ?` all carry that case. */
  predicate HonoursCaseFilter(rows: seq<Row>, outputCase: string) {
    forall i :: 0 <= i < |rows| ==> OutputCaseColumn in rows[i] && CellText(rows[i][OutputCaseColumn]) == outputCase
  }

  /** `GetEntriesByCaseAsync`: refuses a closed connection before querying,
      decodes exactly one entry per row in reader order, and returns nothing
      at all when a row cannot be decoded or the reader fails. */
  method GetEntriesByCase(p: Provider, outputCase: string, reader: Reader<Row>) returns (r: Result<seq<DriftEntry>, ReadError>)
    ensures !ConnectionOpen(p) ==> r == Failure(NotOpen)
    ensures r.Success? <==>
      ConnectionOpen(p) && reader.failure.None? && forall i :: 0 <= i < |reader.rows| ==> Decodable(reader.rows[i])
    ensures r.Success? ==> |r.value| == |reader.rows|
    ensures r.Success? ==> forall i :: 0 <= i < |r.value| ==> DecodeRow(reader.rows[i]) == Success(r.value[i])
    ensures r.Success? && HonoursCaseFilter(reader.rows, outputCase) ==>
      forall i :: 0 <= i < |r.value| ==> r.value[i].outputCase == outputCase
  {
    if !ConnectionOpen(p) {
      return Failure(NotOpen);
    }
    var entries: seq<DriftEntry> := [];
    var i := 0;
    while i < |reader.rows|
      invariant 0 <= i <= |reader.rows|
      invariant |entries| == i
      invariant forall j :: 0 <= j < i ==> Decodable(reader.rows[j])
      invariant forall j :: 0 <= j < i ==> DecodeRow(reader.rows[j]) == Success(entries[j])
    {
      var decoded := DecodeRow(reader.rows[i]);
      if decoded.Failure? {
        return Failure(decoded.error);
      }
      entries := entries + [decoded.value];
      i := i + 1;
    }
    if reader.failure.Some? {
      return Failure(QueryFailed(reader.failure.value));
    }
    return Success(entries);
  }

  /** A row whose every cell is DB null decodes to empty texts and zeros. */
  lemma AllNullRowDecodesToDefaults(row: Row)
    requires forall c :: c in TextColumns + NumericColumns ==> c in row && row[c] == DbNull
    ensures DecodeRow(row) == Success(DriftEntry("", "", "", "", "", "", 0.0, "", 0.0, 0.0, 0.0, 0.0))
  {
    assert Decodable(row);
  }
}

=== FILE: dotnet_text.dfy ===
/** The few pieces of .NET string behaviour the validators depend on:
    `char.IsWhiteSpace`, `string.IsNullOrEmpty`, `string.IsNullOrWhiteSpace`
    and `string.Length`, which counts UTF-16 code units. */
module DotNetText {
  import opened Wrappers

  /** `char.IsWhiteSpace`: the Unicode White_Space characters, i.e. the
      separators (space, line and paragraph separators) and the controls
      U+0009..U+000D and U+0085. */
  predicate IsWhiteSpace(c: char) {
    || c == ' '
    || ('\t' <= c <= '\r')
    || c == '\U{0085}'
    || c == '\U{00A0}'
    || c == '\U{1680}'
    || ('\U{2000}' <= c <= '\U{200A}')
    || c == '\U{2028}'
    || c == '\U{2029}'
    || c == '\U{202F}'
    || c == '\U{205F}'
    || c == '\U{3000}'
  }

  /** Every character of `s` is white space (vacuously true of ""). */
  predicate AllWhiteSpace(s: string) {
    forall i :: 0 <= i < |s| ==> IsWhiteSpace(s[i])
  }

  /** `string.IsNullOrEmpty`. */
  predicate IsNullOrEmpty(s: Option<string>) {
    s.None? || |s.value| == 0
  }

  /** `string.IsNullOrWhiteSpace`, written as the scan .NET performs. */
  function IsNullOrWhiteSpace(s: Option<string>): (r: bool)
    ensures r <==> s.None? || AllWhiteSpace(s.value)
    ensures IsNullOrEmpty(s) ==> r
  {
    match s
    case None => true
    case Some(t) => AllWhiteSpaceFrom(t, 0)
  }

  /** True when `s[i..]` holds only white space. */
  function AllWhiteSpaceFrom(s: string, i: nat): (r: bool)
    requires i <= |s|
    ensures r <==> forall j :: i <= j < |s| ==> IsWhiteSpace(s[j])
    decreases |s| - i
  {
    if i == |s| then true
    else IsWhiteSpace(s[i]) && AllWhiteSpaceFrom(s, i + 1)
  }

  /** `string.Length`: .NET strings are UTF-16, so a character outside the
      Basic Multilingual Plane occupies two code units. */
  function Utf16Length(s: string): (n: nat)
    ensures |s| <= n <= 2 * |s|
  {
    if |s| == 0 then 0
    else CharUnits(s[0]) + Utf16Length(s[1..])
  }

  /** The UTF-16 units of one character: two beyond U+FFFF (a surrogate
      pair), one otherwise. */
  function CharUnits(c: char): nat {
    if c as int > 0xFFFF then 2 else 1
  }

  /** A single character occupies its own units. */
  lemma Utf16LengthOfChar(c: char)
    ensures Utf16Length([c]) == CharUnits(c)
  {
  }

  /** The length of a concatenation is the sum of the lengths, so the length
      of a string is the sum of its characters' units. */
  lemma {:induction false} Utf16LengthAppend(a: string, b: string)
    ensures Utf16Length(a + b) == Utf16Length(a) + Utf16Length(b)
  {
    if |a| == 0 {
      assert a + b == b;
    } else {
      assert (a + b)[0] == a[0] && (a + b)[1..] == a[1..] + b;
      Utf16LengthAppend(a[1..], b);
    }
  }

  /** A string of characters beyond U+FFFF has two code units per character. */
  lemma {:induction false} Utf16LengthOfAstral(s: string)
    requires forall i :: 0 <= i < |s| ==> s[i] as int > 0xFFFF
    ensures Utf16Length(s) == 2 * |s|
  {
    if |s| > 0 {
      Utf16LengthOfAstral(s[1..]);
    }
  }

  /** A string of Basic Multilingual Plane characters has one code unit per character. */
  lemma {:induction false} Utf16LengthOfBmp(s: string)
    requires forall i :: 0 <= i < |s| ==> s[i] as int <= 0xFFFF
    ensures Utf16Length(s) == |s|
  {
    if |s| > 0 {
      Utf16LengthOfBmp(s[1..]);
    }
  }
}

=== FILE: joint_drift_crud.dfy ===
/** The write-side `JointDriftRepository`: validate, append to the first list of
    the persistence context, save. The context is a value: its set of lists
    (`None` when the set is not initialized), the snapshot last saved and the
    number of saves. */
module JointDriftCrud {
  import opened Wrappers
  import opened Validation
  import opened ValidationExceptions
  import opened JointDriftIdentity
  import opened JointDriftLists
  import opened JointDriftValidator
  import opened DotNetText

  datatype DbContext = DbContext(
    lists: Option<seq<JointDriftList>>,
    saved: Option<seq<JointDriftList>>,
    saveCount: nat)

  datatype RepositoryError =
    | Invalid(exception: ValidationException)
    | NotInitialized
    | NoListFound
  {
    function Message(): string {
      match this
      case Invalid(e) => e.message
      case NotInitialized => "JointDriftLists DbSet is not initialized."
      case NoListFound => "No JointDriftList found."
    }
  }

  /** The context after a call, with what the call returned or threw. */
  datatype Outcome<T> = Outcome(context: DbContext, result: Result<T, RepositoryError>)

  /** The context has a list to append to (`FirstOrDefault` is not null). */
  predicate HasList(ctx: DbContext) {
    ctx.lists.Some? && |ctx.lists.value| > 0
  }

  /** `SaveChangesAsync`: the current lists become the saved snapshot. */
  function SaveChanges(ctx: DbContext): (c: DbContext)
    ensures c.lists == ctx.lists && c.saved == ctx.lists
    ensures c.saveCount == ctx.saveCount + 1
  {
    DbContext(ctx.lists, ctx.lists, ctx.saveCount + 1)
  }

  /** The lists with `items` appended to the first one; the others are untouched. */
  function AppendToFirst(lists: seq<JointDriftList>, items: seq<JointDriftItem>): (r: seq<JointDriftList>)
    requires |lists| > 0
    ensures |r| == |lists| && r[0].items == lists[0].items + items
    ensures forall i :: 1 <= i < |lists| ==> r[i] == lists[i]
  {
    lists[0 := JointDriftList(lists[0].items + items)]
  }

  /** `AddItemAsync`: validation comes first, then the null set, then the
      missing list; only a valid item is appended, followed by one save. */
  function AddItem(ctx: DbContext, item: JointDriftItem): (o: Outcome<()>)
    ensures !IsValid(Validate(item)) ==>
      o == Outcome(ctx, Failure(Invalid(FromFailures(Validate(item)))))
    ensures IsValid(Validate(item)) && ctx.lists.None? ==>
      o == Outcome(ctx, Failure(NotInitialized)) && o.result.error.Message() == "JointDriftLists DbSet is not initialized."
    ensures IsValid(Validate(item)) && ctx.lists.Some? && |ctx.lists.value| == 0 ==>
      o == Outcome(ctx, Failure(NoListFound)) && o.result.error.Message() == "No JointDriftList found."
    ensures o.result.Success? <==> IsValid(Validate(item)) && HasList(ctx)
    ensures o.result.Success? ==>
      && o.context.lists == Some(AppendToFirst(ctx.lists.value, [item]))
      && o.context.saved == o.context.lists
      && o.context.saveCount == ctx.saveCount + 1
  {
    var failures := Validate(item);
    if !IsValid(failures) then Outcome(ctx, Failure(Invalid(FromFailures(failures))))
    else if ctx.lists.None? then Outcome(ctx, Failure(NotInitialized))
    else if |ctx.lists.value| == 0 then Outcome(ctx, Failure(NoListFound))
    else
      var appended := ctx.(lists := Some(ctx.lists.value[0 := JointDriftList(ctx.lists.value[0].items + [item])]));
      Outcome(SaveChanges(appended), Success(()))
  }

  /** Reference definition: the items of a batch that pass validation, in order. */
  function ValidItems(items: seq<JointDriftItem>): seq<JointDriftItem> {
    if |items| == 0 then []
    else
      var last := items[|items| - 1];
      ValidItems(items[..|items| - 1]) + (if IsValid(Validate(last)) then [last] else [])
  }

  /** Reference definition: every item's failures, concatenated in item order. */
  function AllFailures(items: seq<JointDriftItem>): seq<ValidationFailure> {
    if |items| == 0 then []
    else AllFailures(items[..|items| - 1]) + Validate(items[|items| - 1])
  }

  /** What `AddItemsAsync` does to the context, stated over the reference
      definitions: the valid items are appended to the first list; with any
      failure it throws without saving, otherwise it saves once. */
  function AddItemsOutcome(ctx: DbContext, items: seq<JointDriftItem>): Outcome<()> {
    if ctx.lists.None? then Outcome(ctx, Failure(NotInitialized))
    else if |ctx.lists.value| == 0 then Outcome(ctx, Failure(NoListFound))
    else
      var appended := ctx.(lists := Some(AppendToFirst(ctx.lists.value, ValidItems(items))));
      var failures := AllFailures(items);
      if |failures| > 0 then Outcome(appended, Failure(Invalid(FromFailures(failures))))
      else Outcome(SaveChanges(appended), Success(()))
  }

  /** `AddItemsAsync`: the set and the list are checked before any item; then
      each valid item is appended as it is met and each invalid item's
      failures are collected. With any failure it throws without saving, but
      the valid items stay appended; otherwise it saves once. */
  method AddItems(ctx: DbContext, items: seq<JointDriftItem>) returns (o: Outcome<()>)
    ensures o == AddItemsOutcome(ctx, items)
    ensures ctx.lists.None? ==> o == Outcome(ctx, Failure(NotInitialized))
    ensures ctx.lists.Some? && |ctx.lists.value| == 0 ==> o == Outcome(ctx, Failure(NoListFound))
    ensures HasList(ctx) ==> o.context.lists == Some(AppendToFirst(ctx.lists.value, ValidItems(items)))
    ensures HasList(ctx) && |AllFailures(items)| > 0 ==>
      && o.result == Failure(Invalid(FromFailures(AllFailures(items))))
      && o.context.saved == ctx.saved && o.context.saveCount == ctx.saveCount
    ensures HasList(ctx) && |AllFailures(items)| == 0 ==>
      && o.result == Success(())
      && o.context.saved == o.context.lists && o.context.saveCount == ctx.saveCount + 1
  {
    if ctx.lists.None? {
      return Outcome(ctx, Failure(NotInitialized));
    }
    var lists := ctx.lists.value;
    if |lists| == 0 {
      return Outcome(ctx, Failure(NoListFound));
    }
    var first := lists[0].items;
    var allFailures: seq<ValidationFailure> := [];
    var i := 0;
    while i < |items|
      invariant 0 <= i <= |items|
      invariant first == lists[0].items + ValidItems(items[..i])
      invariant allFailures == AllFailures(items[..i])
    {
      var item := items[i];
      assert items[..i + 1][..i] == items[..i];
      var result := Validate(item);
      if !IsValid(result) {
        allFailures := allFailures + result;
      } else {
        first := first + [item];
      }
      i := i + 1;
    }
    assert items[..i] == items;
    var current := ctx.(lists := Some(lists[0 := JointDriftList(first)]));
    if |allFailures| > 0 {
      return Outcome(current, Failure(Invalid(FromFailures(allFailures))));
    }
    return Outcome(SaveChanges(current), Success(()));
  }

  /** `GetAllItemsAsync`: the first list's items, or none when there is no
      list; a set that is not initialized throws. */
  function GetAllItems(ctx: DbContext): (r: Result<seq<JointDriftItem>, RepositoryError>)
    ensures ctx.lists.None? <==> r == Failure(NotInitialized)
    ensures ctx.lists.Some? && |ctx.lists.value| == 0 ==> r == Success([])
    ensures HasList(ctx) ==> r == Success(ctx.lists.value[0].items)
  {
    match ctx.lists
    case None => Failure(NotInitialized)
    case Some(lists) => Success(if |lists| == 0 then [] else lists[0].items)
  }

  /** Exactly the valid items of a batch are appended: every appended item is
      valid and comes from the batch, and every valid item of the batch is
      appended as often as it occurs. */
  lemma {:induction false} ValidItemsExactly(items: seq<JointDriftItem>)
    ensures forall x :: x in ValidItems(items) ==> x in items && IsValid(Validate(x))
    ensures forall x :: multiset(ValidItems(items))[x] == (if IsValid(Validate(x)) then multiset(items)[x] else 0)
  {
    if |items| > 0 {
      var front := items[..|items| - 1];
      ValidItemsExactly(front);
      assert items == front + [items[|items| - 1]];
    }
  }

  /** The whole batch is appended exactly when every item is valid. */
  lemma {:induction false} WholeBatchAppendedIffAllValid(items: seq<JointDriftItem>)
    ensures ValidItems(items) == items <==> AllValid(items)
  {
    ValidItemsExactly(items);
    NoFailuresMeansAllAppended(items);
    if ValidItems(items) == items {
      forall i | 0 <= i < |items| ensures IsValid(Validate(items[i])) {
        assert items[i] in ValidItems(items);
      }
    }
  }

  /** The valid items are appended in batch order: they form a subsequence
      of the batch. */
  lemma {:induction false} ValidItemsInOrder(items: seq<JointDriftItem>)
    ensures IsSubsequence(ValidItems(items), items)
  {
    if |items| > 0 {
      var front, last := items[..|items| - 1], items[|items| - 1];
      ValidItemsInOrder(front);
      if IsValid(Validate(last)) {
        var r := ValidItems(items);
        assert r == ValidItems(front) + [last];
        assert r[..|r| - 1] == ValidItems(front);
        assert items[..|items| - 1] == front;
      } else {
        assert ValidItems(items) == ValidItems(front);
        SubsequenceExtend(ValidItems(front), front, last);
        assert front + [last] == items;
      }
    }
  }

  /** Every item of the batch passes validation. */
  predicate AllValid(items: seq<JointDriftItem>) {
    forall i :: 0 <= i < |items| ==> IsValid(Validate(items[i]))
  }

  /** A batch is all valid exactly when its front is and its last item is. */
  lemma AllValidSnoc(front: seq<JointDriftItem>, last: JointDriftItem)
    ensures AllValid(front + [last]) <==> AllValid(front) && IsValid(Validate(last))
  {
    var items := front + [last];
    assert items[|front|] == last;
    if AllValid(front) && IsValid(Validate(last)) {
      forall i | 0 <= i < |items| ensures IsValid(Validate(items[i])) {
        if i < |front| {
          assert items[i] == front[i];
        }
      }
    }
    if AllValid(items) {
      forall i | 0 <= i < |front| ensures IsValid(Validate(front[i])) {
        assert items[i] == front[i];
      }
    }
  }

  /** A batch has no failures exactly when every item is valid, and then
      every item is appended, in order. */
  lemma {:induction false} NoFailuresMeansAllAppended(items: seq<JointDriftItem>)
    ensures |AllFailures(items)| == 0 <==> AllValid(items)
    ensures |AllFailures(items)| == 0 ==> ValidItems(items) == items
  {
    if |items| > 0 {
      var front, last := items[..|items| - 1], items[|items| - 1];
      NoFailuresMeansAllAppended(front);
      assert items == front + [last];
      AllValidSnoc(front, last);
      assert AllFailures(items) == AllFailures(front) + Validate(last);
      assert ValidItems(items) == ValidItems(front) + (if IsValid(Validate(last)) then [last] else []);
    }
  }

  /** Appending one valid item through `AddItemAsync` and then reading back
      gives the old items followed by that item. */
  lemma AddThenGetAll(ctx: DbContext, item: JointDriftItem)
    requires HasList(ctx) && IsValid(Validate(item))
    ensures GetAllItems(AddItem(ctx, item).context) == Success(ctx.lists.value[0].items + [item])
  {
  }

  /** The all-or-nothing batch add: the same checks, but an invalid item
      leaves the context exactly as it was. */
  function AddItemsAtomic(ctx: DbContext, items: seq<JointDriftItem>): (o: Outcome<()>)
    ensures o.result.Failure? ==> o.context == ctx
    ensures o.result.Success? <==> HasList(ctx) && |AllFailures(items)| == 0
    ensures o.result.Success? ==>
      && o.context.lists == Some(AppendToFirst(ctx.lists.value, items))
      && o.context.saved == o.context.lists && o.context.saveCount == ctx.saveCount + 1
    ensures HasList(ctx) && |AllFailures(items)| > 0 ==> o.result == Failure(Invalid(FromFailures(AllFailures(items))))
  {
    if ctx.lists.None? then Outcome(ctx, Failure(NotInitialized))
    else if |ctx.lists.value| == 0 then Outcome(ctx, Failure(NoListFound))
    else
      var failures := AllFailures(items);
      if |failures| > 0 then Outcome(ctx, Failure(Invalid(FromFailures(failures))))
      else
        NoFailuresMeansAllAppended(items);
        Outcome(SaveChanges(ctx.(lists := Some(AppendToFirst(ctx.lists.value, items)))), Success(()))
  }

  /** The two batch adds differ only when some item is invalid. */
  lemma AtomicAgreesOnValidBatches(ctx: DbContext, items: seq<JointDriftItem>)
    requires |AllFailures(items)| == 0
    ensures AddItemsAtomic(ctx, items) == AddItemsOutcome(ctx, items)
  {
    NoFailuresMeansAllAppended(items);
  }

  /** A batch of one valid and one invalid item, added to any list: the call
      fails, yet the valid item stays appended without a save, and the next
      successful `AddItemAsync` of a valid item saves it along with the
      batch's leftover. The all-or-nothing add leaves the context as it was. */
  lemma FailedBatchLeaksIntoNextSave(ctx: DbContext, v: JointDriftItem, bad: JointDriftItem)
    requires HasList(ctx) && IsValid(Validate(v)) && !IsValid(Validate(bad))
    ensures var afterBatch := AddItemsOutcome(ctx, [v, bad]);
            && afterBatch.result.Failure?
            && afterBatch.context.lists == Some(AppendToFirst(ctx.lists.value, [v]))
            && afterBatch.context.saved == ctx.saved
            && afterBatch.context.saveCount == ctx.saveCount
            && AddItem(afterBatch.context, v).context.saved == Some(AppendToFirst(ctx.lists.value, [v, v]))
            && AddItemsAtomic(ctx, [v, bad]).context == ctx
  {
    var batch := [v, bad];
    assert batch[..1] == [v];
    assert [v][..0] == [];
    assert ValidItems([v]) == [v];
    assert ValidItems(batch) == [v];
    assert AllFailures(batch) == AllFailures([v]) + Validate(bad);
    var lists := ctx.lists.value;
    var leaked := AppendToFirst(lists, [v]);
    assert leaked[0].items + [v] == lists[0].items + [v, v];
    assert AppendToFirst(leaked, [v]) == AppendToFirst(lists, [v, v]);
  }

  /** A valid sample item and one with a non-positive label. */
  function SampleValid(): JointDriftItem {
    JointDriftItem(Some("L1"), 7, 1, Some("ELF X"), 0, 0.0, 0.0, 0.0, 0.0)
  }

  function SampleInvalid(): JointDriftItem {
    SampleValid().(jointLabel := 0)
  }

  /** The samples meet the premises of `FailedBatchLeaksIntoNextSave`, so the
      batch [SampleValid(), SampleInvalid()] exhibits the leak. */
  lemma SamplesShowTheLeak()
    ensures IsValid(Validate(SampleValid())) && !IsValid(Validate(SampleInvalid()))
  {
    assert !IsWhiteSpace('L') && !IsWhiteSpace('E');
  }
}

=== FILE: joint_drift_id.dfy ===
/** The joint-drift record in its integer shape and its composite identity,
    the value object `JointDriftId` over (Story, Label, OutputCase, StepNumber). */
module JointDriftIdentity {
  import opened Wrappers

  /** One measurement sample, as the domain entity declares it: integer label,
      unique name and step number; nullable story and output case; the
      displacements and drifts are doubles nothing computes with. */
  datatype JointDriftItem = JointDriftItem(
    story: Option<string>,
    jointLabel: int,
    uniqueName: int,
    outputCase: Option<string>,
    stepNumber: int,
    dispX: real,
    dispY: real,
    driftX: real,
    drifty: real)

  /** The identity value object. */
  datatype JointDriftId = JointDriftId(
    story: Option<string>,
    jointLabel: int,
    outputCase: Option<string>,
    stepNumber: int)

  /** The constructor: each argument is stored in its own property. */
  function NewId(story: Option<string>, jointLabel: int, outputCase: Option<string>, stepNumber: int): (id: JointDriftId)
    ensures id.story == story && id.jointLabel == jointLabel
    ensures id.outputCase == outputCase && id.stepNumber == stepNumber
  {
    JointDriftId(story, jointLabel, outputCase, stepNumber)
  }

  /** The identity of an item, built from its four key fields. */
  function IdOf(item: JointDriftItem): JointDriftId {
    NewId(item.story, item.jointLabel, item.outputCase, item.stepNumber)
  }

  /** A boxed equality component: a null reference, a string or an int. */
  datatype Component = NullRef | Str(s: string) | Int(i: int)

  function Boxed(s: Option<string>): Component {
    match s
    case None => NullRef
    case Some(t) => Str(t)
  }

  /** The value a story or output-case component boxes, if it is one. */
  function Unboxed(c: Component): Option<Option<string>> {
    match c
    case NullRef => Some(None)
    case Str(t) => Some(Some(t))
    case Int(_) => None
  }

  /** Reads an id back from its equality components. */
  function IdFromComponents(cs: seq<Component>): Option<JointDriftId> {
    if |cs| == 4 && Unboxed(cs[0]).Some? && cs[1].Int? && Unboxed(cs[2]).Some? && cs[3].Int? then
      Some(JointDriftId(Unboxed(cs[0]).value, cs[1].i, Unboxed(cs[2]).value, cs[3].i))
    else None
  }

  /** `GetEqualityComponents`: Story, Label, OutputCase, StepNumber, in that
      order; the four components carry the whole id, so it can be read back. */
  function Components(id: JointDriftId): (cs: seq<Component>)
    ensures |cs| == 4
    ensures IdFromComponents(cs) == Some(id)
  {
    [Boxed(id.story), Int(id.jointLabel), Boxed(id.outputCase), Int(id.stepNumber)]
  }

  /** `object.Equals(a, b)` on two boxed components: two nulls are equal, a null
      never equals a value, strings compare ordinally and ints by value. */
  function ComponentEquals(a: Component, b: Component): (r: bool)
    ensures r <==> a == b
  {
    match (a, b)
    case (NullRef, NullRef) => true
    case (Str(x), Str(y)) => x == y
    case (Int(x), Int(y)) => x == y
    case _ => false
  }

  /** `Enumerable.SequenceEqual` with `object.Equals`: same length and
      pairwise-equal elements, compared front to back. */
  function SequenceEqual(a: seq<Component>, b: seq<Component>): (r: bool)
    ensures r <==> a == b
  {
    if |a| == 0 || |b| == 0 then |a| == |b|
    else ComponentEquals(a[0], b[0]) && SequenceEqual(a[1..], b[1..])
  }

  /** `ValueObject.Equals`: structural equality of the equality components,
      which is exactly equality of the ids. */
  function IdEquals(x: JointDriftId, y: JointDriftId): (r: bool)
    ensures r <==> x == y
  {
    SequenceEqual(Components(x), Components(y))
  }

  /** Two ids are equal exactly when their four fields are pairwise equal. */
  lemma IdEqualsIff(x: JointDriftId, y: JointDriftId)
    ensures IdEquals(x, y) <==>
      x.story == y.story && x.jointLabel == y.jointLabel &&
      x.outputCase == y.outputCase && x.stepNumber == y.stepNumber
  {
    if Components(x) == Components(y) {
      assert Components(x)[0] == Components(y)[0];
      assert Components(x)[2] == Components(y)[2];
    }
  }

  /** Id equality is reflexive, symmetric and transitive. */
  lemma IdEqualsIsEquivalence(x: JointDriftId, y: JointDriftId, z: JointDriftId)
    ensures IdEquals(x, x)
    ensures IdEquals(x, y) <==> IdEquals(y, x)
    ensures IdEquals(x, y) && IdEquals(y, z) ==> IdEquals(x, z)
  {
  }

  /** Fields outside the key never influence identity: two items that agree on
      story, jointLabel, output case and step number have equal ids, whatever their
      unique names, displacements and drifts. */
  lemma IdIgnoresMeasurements(a: JointDriftItem, b: JointDriftItem)
    requires a.story == b.story && a.jointLabel == b.jointLabel
    requires a.outputCase == b.outputCase && a.stepNumber == b.stepNumber
    ensures IdEquals(IdOf(a), IdOf(b))
  {
  }
}

=== FILE: joint_drift_list.dfy ===
/** The aggregate root `JointDriftList`: an ordered list of items that does not
    enforce identity uniqueness, with identity-based lookup. */
module JointDriftLists {
  import opened JointDriftIdentity

  datatype JointDriftList = JointDriftList(items: seq<JointDriftItem>)

  /** A new list starts with no items. */
  function NewList(): (l: JointDriftList)
    ensures |l.items| == 0
  {
    JointDriftList([])
  }

  /** The `HashSet` built from the requested ids. Because `IdEquals` is
      structural equality (`IdEqualsIff`), set membership decides `Contains`. */
  function IdSet(ids: seq<JointDriftId>): (s: set<JointDriftId>)
    ensures forall id :: id in s <==> id in ids
  {
    set id | id in ids
  }

  /** Reference definition of the lookup: the items whose id is in `idSet`, in
      list order. Written from the back so that a left-to-right scan extends it. */
  function Matching(items: seq<JointDriftItem>, idSet: set<JointDriftId>): seq<JointDriftItem>
  {
    if |items| == 0 then []
    else
      var last := items[|items| - 1];
      Matching(items[..|items| - 1], idSet) + (if IdOf(last) in idSet then [last] else [])
  }

  /** `a` is obtained from `b` by deleting elements, so order is kept. */
  predicate IsSubsequence<T(==)>(a: seq<T>, b: seq<T>)
    decreases |b|
  {
    if |a| == 0 then true
    else if |b| == 0 then false
    else if a[|a| - 1] == b[|b| - 1] then IsSubsequence(a[..|a| - 1], b[..|b| - 1])
    else IsSubsequence(a, b[..|b| - 1])
  }

  /** `GetItemsByIds`: build the id set, then keep, in order, every item whose
      identity is in it. The list itself is a value and is not changed. */
  method GetItemsByIds(list: JointDriftList, ids: seq<JointDriftId>) returns (r: seq<JointDriftItem>)
    ensures r == Matching(list.items, IdSet(ids))
    ensures forall x :: x in r <==> x in list.items && IdOf(x) in ids
    ensures forall x :: multiset(r)[x] == (if IdOf(x) in ids then multiset(list.items)[x] else 0)
    ensures |r| <= |list.items|
  {
    var idSet := IdSet(ids);
    r := [];
    var i := 0;
    while i < |list.items|
      invariant 0 <= i <= |list.items|
      invariant r == Matching(list.items[..i], idSet)
    {
      var item := list.items[i];
      assert list.items[..i + 1][..i] == list.items[..i];
      if IdOf(item) in idSet {
        r := r + [item];
      }
      i := i + 1;
    }
    assert list.items[..i] == list.items;
    MatchingMembers(list.items, idSet);
    MatchingCounts(list.items, idSet);
    MatchingIsSubsequence(list.items, idSet);
    SubsequenceNoLonger(r, list.items);
  }

  /** `HashSet.Contains` with the value object's equality: an id is in the set
      built from `ids` exactly when it `IdEquals` one of them. */
  lemma ContainsIsIdEquals(ids: seq<JointDriftId>, id: JointDriftId)
    ensures id in IdSet(ids) <==> exists j :: 0 <= j < |ids| && IdEquals(ids[j], id)
  {
    if id in ids {
      var j :| 0 <= j < |ids| && ids[j] == id;
      IdEqualsIsEquivalence(id, id, id);
    }
  }

  /** An item is returned exactly when it is in the list and its id is requested. */
  lemma {:induction false} MatchingMembers(items: seq<JointDriftItem>, idSet: set<JointDriftId>)
    ensures forall x :: x in Matching(items, idSet) <==> x in items && IdOf(x) in idSet
  {
    if |items| > 0 {
      var front := items[..|items| - 1];
      MatchingMembers(front, idSet);
      assert items == front + [items[|items| - 1]];
    }
  }

  /** Every copy of a requested item is returned, so several items sharing one
      key all come back, and unrequested items never do. */
  lemma {:induction false} MatchingCounts(items: seq<JointDriftItem>, idSet: set<JointDriftId>)
    ensures forall x :: multiset(Matching(items, idSet))[x] ==
                        if IdOf(x) in idSet then multiset(items)[x] else 0
  {
    if |items| > 0 {
      var front := items[..|items| - 1];
      MatchingCounts(front, idSet);
      assert items == front + [items[|items| - 1]];
    }
  }

  /** The result keeps the list's relative order. */
  lemma {:induction false} MatchingIsSubsequence(items: seq<JointDriftItem>, idSet: set<JointDriftId>)
    ensures IsSubsequence(Matching(items, idSet), items)
  {
    if |items| > 0 {
      var front := items[..|items| - 1];
      var last := items[|items| - 1];
      assert items == front + [last];
      MatchingIsSubsequence(front, idSet);
      var m := Matching(front, idSet);
      if IdOf(last) in idSet {
        assert Matching(items, idSet) == m + [last];
        assert (m + [last])[..|m|] == m;
      } else {
        assert Matching(items, idSet) == m;
        SubsequenceExtend(m, front, last);
      }
    }
  }

  /** A subsequence of `b` is a subsequence of `b` with one more element. */
  lemma {:induction false} SubsequenceExtend<T>(a: seq<T>, b: seq<T>, x: T)
    requires IsSubsequence(a, b)
    ensures IsSubsequence(a, b + [x])
    decreases |a| + |b|, 1
  {
    assert (b + [x])[..|b|] == b;
    if |a| > 0 && a[|a| - 1] == x {
      SubsequenceDropLast(a, b);
    }
  }

  /** Dropping the last element of a subsequence keeps it a subsequence. */
  lemma {:induction false} SubsequenceDropLast<T>(a: seq<T>, b: seq<T>)
    requires |a| > 0 && IsSubsequence(a, b)
    ensures IsSubsequence(a[..|a| - 1], b)
    decreases |a| + |b|, 0
  {
    var b' := b[..|b| - 1];
    var y := b[|b| - 1];
    assert b == b' + [y];
    if a[|a| - 1] != y {
      SubsequenceDropLast(a, b');
    }
    SubsequenceExtend(a[..|a| - 1], b', y);
  }

  /** The result is no longer than the list. */
  lemma {:induction false} SubsequenceNoLonger<T>(a: seq<T>, b: seq<T>)
    requires IsSubsequence(a, b)
    ensures |a| <= |b|
    decreases |b|
  {
    if |a| > 0 {
      if a[|a| - 1] == b[|b| - 1] {
        SubsequenceNoLonger(a[..|a| - 1], b[..|b| - 1]);
      } else {
        SubsequenceNoLonger(a, b[..|b| - 1]);
      }
    }
  }

  /** Only the set of requested ids matters: repeating or reordering ids in
      the request does not change the result. */
  lemma {:induction false} RequestOnlyMattersAsSet(items: seq<JointDriftItem>, ids1: seq<JointDriftId>, ids2: seq<JointDriftId>)
    requires forall id :: id in ids1 <==> id in ids2
    ensures Matching(items, IdSet(ids1)) == Matching(items, IdSet(ids2))
  {
    assert IdSet(ids1) == IdSet(ids2);
  }

  /** An empty request yields an empty result. */
  lemma {:induction false} EmptyRequestYieldsNothing(items: seq<JointDriftItem>)
    ensures Matching(items, IdSet([])) == []
  {
    if |items| > 0 {
      EmptyRequestYieldsNothing(items[..|items| - 1]);
    }
  }
}

=== FILE: joint_drift_validator.dfy ===
/** `JointDriftItemValidator`: four independent rules on an item, each
    reporting its own failure, in declaration order. The messages are the
    library's default English texts for `GreaterThan`, `GreaterThanOrEqualTo`
    and `NotEmpty` with the display names it derives from the property names. */
module JointDriftValidator {
  import opened Wrappers
  import opened DotNetText
  import opened Validation
  import opened JointDriftIdentity

  const LabelMessage := "'Label' must be greater than '0'."
  const StepNumberMessage := "'Step Number' must be greater than or equal to '0'."
  const StoryMessage := "'Story' must not be empty."
  const OutputCaseMessage := "'Output Case' must not be empty."

  /** The properties the validator has rules for. */
  const RuledProperties: set<string> := {"Label", "StepNumber", "Story", "OutputCase"}

  /** `NotEmpty` on a string: fails on null, "" and white space only. */
  predicate NotEmpty(s: Option<string>) {
    !IsNullOrWhiteSpace(s)
  }

  /** The four rules of the validator hold. */
  predicate RulesHold(item: JointDriftItem) {
    item.jointLabel > 0 && item.stepNumber >= 0 && NotEmpty(item.story) && NotEmpty(item.outputCase)
  }

  /** All four rules run, in declaration order, and each violated rule
      contributes one failure; the item is valid exactly when every rule
      holds. Which failures are reported is stated by `ValidateReports`. */
  function Validate(item: JointDriftItem): (r: seq<ValidationFailure>)
    ensures |r| <= 4
    ensures forall i, j :: 0 <= i < j < |r| ==> r[i].propertyName != r[j].propertyName
    ensures IsValid(r) <==> RulesHold(item)
  {
    Check(item.jointLabel > 0, "Label", LabelMessage)
    + Check(item.stepNumber >= 0, "StepNumber", StepNumberMessage)
    + Check(NotEmpty(item.story), "Story", StoryMessage)
    + Check(NotEmpty(item.outputCase), "OutputCase", OutputCaseMessage)
  }

  /** Every violated rule reports its own message against its own property,
      a property fails exactly when its rule is violated, and nothing is
      reported against any other property. */
  lemma ValidateReports(item: JointDriftItem)
    ensures OnlyOn(Validate(item), RuledProperties)
    ensures FailsOn(Validate(item), "Label") <==> item.jointLabel <= 0
    ensures FailsOn(Validate(item), "StepNumber") <==> item.stepNumber < 0
    ensures FailsOn(Validate(item), "Story") <==> item.story.None? || AllWhiteSpace(item.story.value)
    ensures FailsOn(Validate(item), "OutputCase") <==> item.outputCase.None? || AllWhiteSpace(item.outputCase.value)
    ensures item.jointLabel <= 0 ==> Reports(Validate(item), "Label", LabelMessage)
    ensures item.stepNumber < 0 ==> Reports(Validate(item), "StepNumber", StepNumberMessage)
    ensures !NotEmpty(item.story) ==> Reports(Validate(item), "Story", StoryMessage)
    ensures !NotEmpty(item.outputCase) ==> Reports(Validate(item), "OutputCase", OutputCaseMessage)
  {
    var labelRule := Check(item.jointLabel > 0, "Label", LabelMessage);
    var stepRule := Check(item.stepNumber >= 0, "StepNumber", StepNumberMessage);
    var storyRule := Check(NotEmpty(item.story), "Story", StoryMessage);
    var caseRule := Check(NotEmpty(item.outputCase), "OutputCase", OutputCaseMessage);
    var r := Validate(item);
    assert r == labelRule + stepRule + storyRule + caseRule;
    forall p: string
      ensures FailsOn(r, p) <==>
        || (p == "Label" && item.jointLabel <= 0)
        || (p == "StepNumber" && item.stepNumber < 0)
        || (p == "Story" && !NotEmpty(item.story))
        || (p == "OutputCase" && !NotEmpty(item.outputCase))
    {
      FailsOnConcat(labelRule, stepRule, p);
      FailsOnConcat(labelRule + stepRule, storyRule, p);
      FailsOnConcat(labelRule + stepRule + storyRule, caseRule, p);
      FailsOnCheck(item.jointLabel > 0, "Label", LabelMessage, p);
      FailsOnCheck(item.stepNumber >= 0, "StepNumber", StepNumberMessage, p);
      FailsOnCheck(NotEmpty(item.story), "Story", StoryMessage, p);
      FailsOnCheck(NotEmpty(item.outputCase), "OutputCase", OutputCaseMessage, p);
    }
  }

  /** A zero step number is accepted. */
  lemma StepNumberZeroAccepted(item: JointDriftItem)
    requires item.stepNumber == 0
    ensures !FailsOn(Validate(item), "StepNumber")
  {
    ValidateReports(item);
  }

  /** The unique name, displacements and drifts never cause a failure: two
      items agreeing on the four ruled fields get the same failures. */
  lemma UnruledFieldsIrrelevant(a: JointDriftItem, b: JointDriftItem)
    requires a.story == b.story && a.jointLabel == b.jointLabel
    requires a.outputCase == b.outputCase && a.stepNumber == b.stepNumber
    ensures Validate(a) == Validate(b)
  {
  }
}

=== FILE: todo_service.dfy ===
/** `TodoService` over a store of to-do items keyed by id. The store is a map
    from key to item; the clock is a parameter (`now`, in ticks), and the key
    the database generates for a new row is a parameter too. */
module TodoService {
  import opened Wrappers
  import opened DotNetText

  datatype TodoItem = TodoItem(
    id: int,
    title: string,
    description: Option<string>,
    isCompleted: bool,
    createdAt: int,
    completedAt: Option<int>)

  type Store = map<int, TodoItem>

  /** The primary key: every stored item sits under its own id. */
  predicate WellFormed(store: Store) {
    forall k :: k in store ==> store[k].id == k
  }

  datatype ServiceError =
    | NotFound(id: int)      // InvalidOperationException("Todo with ID {id} not found")
    | DuplicateKey(id: int)  // the save of a row whose key is already taken fails

  /** Newest first: creation times never increase along the sequence. */
  predicate NewestFirst(items: seq<TodoItem>) {
    forall i, j :: 0 <= i < j < |items| ==> items[i].createdAt >= items[j].createdAt
  }

  /** Inserts `x` before the first item created no later than it. */
  function InsertNewestFirst(items: seq<TodoItem>, x: TodoItem): (r: seq<TodoItem>)
    requires NewestFirst(items)
    ensures NewestFirst(r)
    ensures |r| == |items| + 1
    ensures multiset(r) == multiset(items) + multiset{x}
  {
    if |items| == 0 then [x]
    else if x.createdAt >= items[0].createdAt then
      assert NewestFirst([x] + items) by {
        forall i, j | 0 <= i < j < |items| + 1 ensures ([x] + items)[i].createdAt >= ([x] + items)[j].createdAt {
          if i > 0 {
            assert ([x] + items)[i] == items[i - 1] && ([x] + items)[j] == items[j - 1];
          }
        }
      }
      [x] + items
    else
      var head := items[0];
      var rest := InsertNewestFirst(items[1..], x);
      assert items == [head] + items[1..];
      InsertionPreservesOrder(head, items[1..], x, rest);
      [head] + rest
  }

  /** The head of a newest-first list stays in front of the insertion into
      its tail when it is newer than the inserted item. */
  lemma InsertionPreservesOrder(head: TodoItem, tail: seq<TodoItem>, x: TodoItem, rest: seq<TodoItem>)
    requires NewestFirst([head] + tail) && NewestFirst(rest)
    requires x.createdAt < head.createdAt
    requires multiset(rest) == multiset(tail) + multiset{x}
    ensures NewestFirst([head] + rest)
  {
    forall y | y in rest ensures y.createdAt <= head.createdAt {
      assert multiset(rest)[y] > 0;
      if y != x {
        assert multiset(tail)[y] > 0;
        assert y in tail;
        var i :| 0 <= i < |tail| && tail[i] == y;
        assert ([head] + tail)[i + 1] == y && ([head] + tail)[0] == head;
      }
    }
    forall i, j | 0 <= i < j < |rest| + 1 ensures ([head] + rest)[i].createdAt >= ([head] + rest)[j].createdAt {
      assert ([head] + rest)[j] == rest[j - 1];
      if i == 0 {
        assert rest[j - 1] in rest;
      } else {
        assert ([head] + rest)[i] == rest[i - 1];
      }
    }
  }

  /** Every stored item, each once. */
  ghost predicate ListsStore(r: seq<TodoItem>, store: Store, keys: set<int>) {
    && keys <= store.Keys
    && |r| == |keys|
    && (forall k :: k in keys ==> store[k] in r)
    && (forall x :: x in r ==> x.id in keys && store[x.id] == x)
    && (forall x :: multiset(r)[x] <= 1)
  }

  /** Inserting the item of a key not yet listed lists that key as well. */
  lemma InsertKeepsListing(r: seq<TodoItem>, store: Store, done: set<int>, k: int)
    requires WellFormed(store) && ListsStore(r, store, done) && NewestFirst(r)
    requires k in store && k !in done
    ensures ListsStore(InsertNewestFirst(r, store[k]), store, done + {k})
  {
    var item := store[k];
    assert item !in r;
    var r' := InsertNewestFirst(r, item);
    forall y ensures (y in r' <==> y in r || y == item) && multiset(r')[y] <= 1 {
      assert multiset(r')[y] == multiset(r)[y] + (if y == item then 1 else 0);
    }
  }

  /** `GetAllAsync`: every stored item exactly once, newest first. */
  method GetAll(store: Store) returns (r: seq<TodoItem>)
    requires WellFormed(store)
    ensures NewestFirst(r)
    ensures |r| == |store|
    ensures forall k :: k in store ==> store[k] in r
    ensures forall x :: x in r ==> x.id in store && store[x.id] == x
    ensures forall x :: multiset(r)[x] <= 1
  {
    r := [];
    var remaining := store.Keys;
    ghost var done: set<int> := {};
    while remaining != {}
      invariant remaining + done == store.Keys && remaining !! done
      invariant NewestFirst(r)
      invariant ListsStore(r, store, done)
      decreases |remaining|
    {
      HasElement(remaining);
      var k :| k in remaining;
      InsertKeepsListing(r, store, done, k);
      r := InsertNewestFirst(r, store[k]);
      remaining := remaining - {k};
      done := done + {k};
    }
    assert done == store.Keys;
  }

  /** `GetByIdAsync`: the item with that id, or null when there is none. */
  function GetById(store: Store, id: int): (r: Option<TodoItem>)
    requires WellFormed(store)
    ensures r.None? <==> forall k :: k in store ==> store[k].id != id
    ensures r.Some? ==> r.value.id == id && r.value in store.Values
  {
    if id in store then Some(store[id]) else None
  }

  /** `CreateAsync`: stamps the creation time and adds the item. A zero id is
      the "not yet generated" value, replaced by the database's key; any other
      id is kept, and one already in use makes the save fail. */
  function Create(store: Store, item: TodoItem, now: int, generatedId: int): (r: Result<(Store, TodoItem), ServiceError>)
    requires WellFormed(store)
    requires generatedId !in store
    ensures item.id != 0 && item.id in store <==> r == Failure(DuplicateKey(item.id))
    ensures r.Success? ==>
      var (store', created) := r.value;
      && created == item.(id := created.id, createdAt := now)
      && created.id == (if item.id == 0 then generatedId else item.id)
      && created.id !in store
      && store' == store[created.id := created]
      && WellFormed(store')
      && |store'| == |store| + 1
  {
    var id := if item.id == 0 then generatedId else item.id;
    if id in store then Failure(DuplicateKey(id))
    else
      var created := item.(id := id, createdAt := now);
      Success((store[id := created], created))
  }

  /** The completion-timestamp rule of `UpdateAsync`: completing an item that
      has no timestamp stamps it now, un-completing clears it, and otherwise
      the existing timestamp is kept. */
  function NextCompletedAt(existing: Option<int>, isCompleted: bool, now: int): (c: Option<int>)
    ensures isCompleted <==> c.Some?
    ensures isCompleted && existing.Some? ==> c == existing
    ensures isCompleted && existing.None? ==> c == Some(now)
  {
    if isCompleted && existing.None? then Some(now)
    else if !isCompleted then None
    else existing
  }

  /** `UpdateAsync`: a missing id throws and changes nothing; otherwise title,
      description (null or white space becomes "") and completion are copied
      onto the stored item, whose id and creation time stay as they were. */
  function Update(store: Store, item: TodoItem, now: int): (r: Result<(Store, TodoItem), ServiceError>)
    requires WellFormed(store)
    ensures item.id !in store <==> r == Failure(NotFound(item.id))
    ensures r.Success? ==>
      var (store', updated) := r.value;
      var existing := store[item.id];
      && updated.id == existing.id && updated.createdAt == existing.createdAt
      && updated.title == item.title
      && updated.description == (if IsNullOrWhiteSpace(item.description) then Some("") else item.description)
      && updated.isCompleted == item.isCompleted
      && updated.completedAt == NextCompletedAt(existing.completedAt, item.isCompleted, now)
      && store' == store[item.id := updated]
      && WellFormed(store') && store'.Keys == store.Keys
  {
    if item.id !in store then Failure(NotFound(item.id))
    else
      var existing := store[item.id];
      var updated := existing.(
        title := item.title,
        description := if IsNullOrWhiteSpace(item.description) then Some("") else item.description,
        isCompleted := item.isCompleted,
        completedAt := NextCompletedAt(existing.completedAt, item.isCompleted, now));
      Success((store[item.id := updated], updated))
  }

  /** `DeleteAsync`: a missing id throws and changes nothing; otherwise exactly
      that item is removed and the call returns true. */
  function Delete(store: Store, id: int): (r: Result<(Store, bool), ServiceError>)
    requires WellFormed(store)
    ensures id !in store <==> r == Failure(NotFound(id))
    ensures r.Success? ==>
      && r.value.1
      && r.value.0.Keys == store.Keys - {id}
      && (forall k :: k in r.value.0 ==> r.value.0[k] == store[k])
      && WellFormed(r.value.0)
      && |r.value.0| == |store| - 1
  {
    if id !in store then Failure(NotFound(id))
    else Success((store - {id}, true))
  }

  /** The keys of completed items. */
  function CompletedKeys(store: Store): set<int> {
    set k | k in store && store[k].isCompleted
  }

  /** `GetTotalCountAsync`: every stored item counts once, completed or not. */
  function TotalCount(store: Store): (n: nat)
    ensures n == |CompletedKeys(store)| + |store.Keys - CompletedKeys(store)|
  {
    var done := CompletedKeys(store);
    assert store.Keys == done + (store.Keys - done);
    |store|
  }

  /** A non-empty set has an element. */
  lemma HasElement(s: set<int>)
    requires s != {}
    ensures exists x :: x in s
  {
    if forall x :: x !in s {
      assert false;
    }
  }

  /** A proper subset misses an element of the larger set. */
  lemma ProperSubsetMisses(a: set<int>, b: set<int>)
    requires a < b
    ensures exists x :: x in b && x !in a
  {
    if forall x :: x in b ==> x in a {
      assert false;
    }
  }

  /** A subset is no larger, and a proper subset is smaller. */
  lemma {:induction false} SubsetSize(a: set<int>, b: set<int>)
    requires a <= b
    ensures |a| <= |b|
    ensures a < b ==> |a| < |b|
    decreases |b|
  {
    if a < b {
      ProperSubsetMisses(a, b);
      var x :| x in b && x !in a;
      assert |b - {x}| == |b| - 1;
      SubsetSize(a, b - {x});
    } else {
      assert a == b;
    }
  }

  /** `GetCompletedCountAsync`: the number of completed items, so never more
      than the total, and equal to it exactly when every item is completed. */
  function CompletedCount(store: Store): (n: nat)
    ensures n <= TotalCount(store)
    ensures n == TotalCount(store) <==> forall k :: k in store ==> store[k].isCompleted
    ensures n == |CompletedKeys(store)|
  {
    var done := CompletedKeys(store);
    SubsetSize(done, store.Keys);
    if forall k :: k in store ==> store[k].isCompleted then
      assert done == store.Keys;
      |done|
    else
      var k :| k in store && !store[k].isCompleted;
      assert k !in done;
      |done|
  }

  /** `DeleteAsync` never returns false: every call either throws or returns true. */
  lemma DeleteNeverReturnsFalse(store: Store, id: int)
    requires WellFormed(store)
    ensures Delete(store, id).Success? ==> Delete(store, id).value.1
    ensures Delete(store, id).Failure? <==> id !in store
  {
  }

  /** After an update, an item is completed exactly when it has a completion
      time; a second identical update later keeps the first timestamp. */
  lemma UpdateCompletionIsStable(store: Store, item: TodoItem, t1: int, t2: int)
    requires WellFormed(store) && item.id in store
    ensures var (s1, u1) := Update(store, item, t1).value;
            && (u1.isCompleted <==> u1.completedAt.Some?)
            && Update(s1, item, t2).value.1.completedAt == u1.completedAt
  {
  }

  /** Update keeps the total count, and moves the completed count by at most one. */
  lemma UpdateCounts(store: Store, item: TodoItem, now: int)
    requires WellFormed(store) && item.id in store
    ensures TotalCount(Update(store, item, now).value.0) == TotalCount(store)
    ensures var after := CompletedKeys(Update(store, item, now).value.0);
            after == (if item.isCompleted then CompletedKeys(store) + {item.id} else CompletedKeys(store) - {item.id})
  {
  }
}

=== FILE: todo_validators.dfy ===
/** The to-do request validators: Create, Update, BulkUpdate and Search. Each
    rule chain runs every validator (the library's default cascade), and a
    `WithMessage` replaces the message of the validator just before it only.
    Dates are ticks (`int`). */
module TodoValidators {
  import opened Wrappers
  import opened DotNetText
  import opened Validation

  datatype CreateTodoItemRequest = CreateTodoItemRequest(title: Option<string>, description: Option<string>)

  datatype UpdateTodoItemRequest = UpdateTodoItemRequest(
    id: int, title: Option<string>, description: Option<string>, isCompleted: bool)

  datatype BulkUpdateRequest = BulkUpdateRequest(todoIds: seq<int>, isCompleted: bool)

  datatype TodoSearchRequest = TodoSearchRequest(
    searchTerm: Option<string>,
    isCompleted: Option<bool>,
    createdAfter: Option<int>,
    createdBefore: Option<int>,
    skip: int,
    take: int,
    sortBy: string,
    sortDescending: bool)

  const MaxTitleLength := 200
  const MaxDescriptionLength := 1000
  const MaxTake := 1000

  const TitleRequired := "Title is required"
  const TitleTooLong := "Title cannot exceed 200 characters"
  const TitleWhiteSpace := "Title cannot contain only whitespace"
  const DescriptionTooLong := "Description cannot exceed 1000 characters"
  const IdRequired := "Valid ID is required"
  const IdsRequired := "At least one Todo ID is required"
  const IdsNotPositive := "All Todo IDs must be positive integers"
  const SkipNegative := "Skip must be non-negative"
  /** The library's default message for `GreaterThan(0)` on Take, which has no
      `WithMessage` of its own. */
  const TakeNotPositive := "'Take' must be greater than '0'."
  const TakeOutOfRange := "Take must be between 1 and 1000"
  const SortByInvalid := "SortBy must be one of: CreatedAt, Title, IsCompleted, CompletedAt"
  const CreatedRangeInvalid := "CreatedAfter must be before CreatedBefore"

  const SortFields := ["CreatedAt", "Title", "IsCompleted", "CompletedAt"]

  /** The (property, message) pairs each validator can report. */
  const TitleFailures := {ValidationFailure("Title", TitleRequired), ValidationFailure("Title", TitleTooLong),
                          ValidationFailure("Title", TitleWhiteSpace)}
  const DescriptionFailures := {ValidationFailure("Description", DescriptionTooLong)}
  const CreateFailures := TitleFailures + DescriptionFailures
  const UpdateFailures := {ValidationFailure("Id", IdRequired)} + CreateFailures
  const BulkUpdateFailures := {ValidationFailure("TodoIds", IdsRequired), ValidationFailure("TodoIds", IdsNotPositive)}
  const SearchFailures := {ValidationFailure("Skip", SkipNegative), ValidationFailure("Take", TakeNotPositive),
                           ValidationFailure("Take", TakeOutOfRange), ValidationFailure("SortBy", SortByInvalid),
                           ValidationFailure("CreatedAfter", CreatedRangeInvalid)}

  /** `BeValidTitle`: not null, empty or white space only. */
  function BeValidTitle(title: Option<string>): (ok: bool)
    ensures ok <==> title.Some? && exists i :: 0 <= i < |title.value| && !IsWhiteSpace(title.value[i])
  {
    !IsNullOrWhiteSpace(title)
  }

  /** `ContainOnlyPositiveIds`: every id is positive (true of no ids). */
  function ContainOnlyPositiveIds(ids: seq<int>): (ok: bool)
    ensures ok <==> forall i :: 0 <= i < |ids| ==> ids[i] > 0
  {
    if |ids| == 0 then true else ids[0] > 0 && ContainOnlyPositiveIds(ids[1..])
  }

  /** `BeValidSortField`: one of the four sortable columns, compared exactly. */
  function BeValidSortField(sortBy: string): (ok: bool)
    ensures ok <==> sortBy == "CreatedAt" || sortBy == "Title" || sortBy == "IsCompleted" || sortBy == "CompletedAt"
  {
    sortBy in SortFields
  }

  /** `MaximumLength(n)`: a null value passes; otherwise UTF-16 length at most n. */
  predicate WithinLength(s: Option<string>, max: nat) {
    s.None? || Utf16Length(s.value) <= max
  }

  /** The Title chain shared by Create and Update. */
  function TitleRules(title: Option<string>): (r: seq<ValidationFailure>)
    ensures Reports(r, "Title", TitleRequired) <==> IsNullOrWhiteSpace(title)
    ensures Reports(r, "Title", TitleWhiteSpace) <==> !BeValidTitle(title)
    ensures Reports(r, "Title", TitleTooLong) <==> !WithinLength(title, MaxTitleLength)
    ensures IsValid(r) <==> BeValidTitle(title) && WithinLength(title, MaxTitleLength)
    ensures OnlyOn(r, {"Title"})
    ensures DrawnFrom(r, TitleFailures) && NoRepeats(r)
  {
    var required := Check(!IsNullOrWhiteSpace(title), "Title", TitleRequired);
    var length := Check(WithinLength(title, MaxTitleLength), "Title", TitleTooLong);
    var custom := Check(BeValidTitle(title), "Title", TitleWhiteSpace);
    OnlyOnConcat(required, length, {"Title"});
    OnlyOnConcat(required + length, custom, {"Title"});
    JoinDistinct(required, length, {ValidationFailure("Title", TitleRequired)}, {ValidationFailure("Title", TitleTooLong)});
    JoinDistinct(required + length, custom,
      {ValidationFailure("Title", TitleRequired), ValidationFailure("Title", TitleTooLong)},
      {ValidationFailure("Title", TitleWhiteSpace)});
    required + length + custom
  }

  function DescriptionRules(description: Option<string>): (r: seq<ValidationFailure>)
    ensures Reports(r, "Description", DescriptionTooLong) <==> !WithinLength(description, MaxDescriptionLength)
    ensures IsValid(r) <==> WithinLength(description, MaxDescriptionLength)
    ensures OnlyOn(r, {"Description"})
    ensures DrawnFrom(r, DescriptionFailures) && NoRepeats(r)
  {
    Check(WithinLength(description, MaxDescriptionLength), "Description", DescriptionTooLong)
  }

  /** `CreateTodoItemRequestValidator`. */
  function ValidateCreate(req: CreateTodoItemRequest): (r: seq<ValidationFailure>)
    ensures IsValid(r) <==>
      BeValidTitle(req.title) && WithinLength(req.title, MaxTitleLength) && WithinLength(req.description, MaxDescriptionLength)
    ensures Reports(r, "Title", TitleRequired) <==> IsNullOrWhiteSpace(req.title)
    ensures Reports(r, "Title", TitleWhiteSpace) <==> !BeValidTitle(req.title)
    ensures Reports(r, "Title", TitleTooLong) <==> !WithinLength(req.title, MaxTitleLength)
    ensures Reports(r, "Description", DescriptionTooLong) <==> !WithinLength(req.description, MaxDescriptionLength)
    ensures OnlyOn(r, {"Title", "Description"})
    ensures DrawnFrom(r, CreateFailures) && NoRepeats(r)
  {
    var title, description := TitleRules(req.title), DescriptionRules(req.description);
    OnlyOnConcat(title, description, {"Title", "Description"});
    JoinDistinct(title, description, TitleFailures, DescriptionFailures);
    title + description
  }

  /** `UpdateTodoItemRequestValidator`: the Create rules plus a positive id.
      The title and description messages are stated by `ValidateUpdateReports`. */
  function ValidateUpdate(req: UpdateTodoItemRequest): (r: seq<ValidationFailure>)
    ensures IsValid(r) <==>
      req.id > 0 && BeValidTitle(req.title) && WithinLength(req.title, MaxTitleLength)
      && WithinLength(req.description, MaxDescriptionLength)
    ensures Reports(r, "Id", IdRequired) <==> req.id <= 0
    ensures OnlyOn(r, {"Id", "Title", "Description"})
    ensures DrawnFrom(r, UpdateFailures) && NoRepeats(r)
  {
    var id := Check(req.id > 0, "Id", IdRequired);
    var title, description := TitleRules(req.title), DescriptionRules(req.description);
    var props := {"Id", "Title", "Description"};
    OnlyOnConcat(id, title, props);
    OnlyOnConcat(id + title, description, props);
    var idFailures := {ValidationFailure("Id", IdRequired)};
    JoinDistinct(id, title, idFailures, TitleFailures);
    JoinDistinct(id + title, description, idFailures + TitleFailures, DescriptionFailures);
    id + title + description
  }

  /** The update request reports each title and description message under the
      same condition as the create request does. */
  lemma ValidateUpdateReports(req: UpdateTodoItemRequest)
    ensures Reports(ValidateUpdate(req), "Title", TitleRequired) <==> IsNullOrWhiteSpace(req.title)
    ensures Reports(ValidateUpdate(req), "Title", TitleWhiteSpace) <==> !BeValidTitle(req.title)
    ensures Reports(ValidateUpdate(req), "Title", TitleTooLong) <==> !WithinLength(req.title, MaxTitleLength)
    ensures Reports(ValidateUpdate(req), "Description", DescriptionTooLong) <==> !WithinLength(req.description, MaxDescriptionLength)
  {
    var id := Check(req.id > 0, "Id", IdRequired);
    var rest := TitleRules(req.title) + DescriptionRules(req.description);
    assert ValidateUpdate(req) == id + rest;
    assert rest == ValidateCreate(CreateTodoItemRequest(req.title, req.description));
  }

  /** `BulkUpdateRequestValidator`. */
  function ValidateBulkUpdate(req: BulkUpdateRequest): (r: seq<ValidationFailure>)
    ensures IsValid(r) <==> |req.todoIds| > 0 && forall i :: 0 <= i < |req.todoIds| ==> req.todoIds[i] > 0
    ensures Reports(r, "TodoIds", IdsRequired) <==> |req.todoIds| == 0
    ensures Reports(r, "TodoIds", IdsNotPositive) <==> exists i :: 0 <= i < |req.todoIds| && req.todoIds[i] <= 0
    ensures OnlyOn(r, {"TodoIds"})
    ensures DrawnFrom(r, BulkUpdateFailures) && NoRepeats(r)
  {
    var empty := Check(|req.todoIds| > 0, "TodoIds", IdsRequired);
    var positive := Check(ContainOnlyPositiveIds(req.todoIds), "TodoIds", IdsNotPositive);
    JoinDistinct(empty, positive, {ValidationFailure("TodoIds", IdsRequired)}, {ValidationFailure("TodoIds", IdsNotPositive)});
    empty + positive
  }

  /** The date-range rule, applied only when both bounds are given. */
  predicate CreatedRangeOk(req: TodoSearchRequest) {
    req.createdAfter.None? || req.createdBefore.None? || req.createdAfter.value < req.createdBefore.value
  }

  /** `TodoSearchRequestValidator`. Which messages it reports is stated by
      `ValidateSearchReports`. */
  function ValidateSearch(req: TodoSearchRequest): (r: seq<ValidationFailure>)
    ensures IsValid(r) <==>
      req.skip >= 0 && 1 <= req.take <= MaxTake && BeValidSortField(req.sortBy) && CreatedRangeOk(req)
    ensures OnlyOn(r, {"Skip", "Take", "SortBy", "CreatedAfter"})
    ensures DrawnFrom(r, SearchFailures) && NoRepeats(r)
  {
    var skip := Check(req.skip >= 0, "Skip", SkipNegative);
    var takePositive := Check(req.take > 0, "Take", TakeNotPositive);
    var takeBound := Check(req.take <= MaxTake, "Take", TakeOutOfRange);
    var sortBy := Check(BeValidSortField(req.sortBy), "SortBy", SortByInvalid);
    var range := Check(CreatedRangeOk(req), "CreatedAfter", CreatedRangeInvalid);
    var props := {"Skip", "Take", "SortBy", "CreatedAfter"};
    OnlyOnConcat(skip, takePositive, props);
    OnlyOnConcat(skip + takePositive, takeBound, props);
    OnlyOnConcat(skip + takePositive + takeBound, sortBy, props);
    OnlyOnConcat(skip + takePositive + takeBound + sortBy, range, props);
    var skipF := {ValidationFailure("Skip", SkipNegative)};
    var takePositiveF := {ValidationFailure("Take", TakeNotPositive)};
    var takeBoundF := {ValidationFailure("Take", TakeOutOfRange)};
    var sortByF := {ValidationFailure("SortBy", SortByInvalid)};
    var rangeF := {ValidationFailure("CreatedAfter", CreatedRangeInvalid)};
    JoinDistinct(skip, takePositive, skipF, takePositiveF);
    JoinDistinct(skip + takePositive, takeBound, skipF + takePositiveF, takeBoundF);
    JoinDistinct(skip + takePositive + takeBound, sortBy, skipF + takePositiveF + takeBoundF, sortByF);
    JoinDistinct(skip + takePositive + takeBound + sortBy, range, skipF + takePositiveF + takeBoundF + sortByF, rangeF);
    skip + takePositive + takeBound + sortBy + range
  }

  /** The Skip and Take messages are each reported exactly when their rule is
      violated; a take of zero or less gets the library's message, not the
      custom one. */
  lemma ValidateSearchReports(req: TodoSearchRequest)
    ensures Reports(ValidateSearch(req), "Skip", SkipNegative) <==> req.skip < 0
    ensures Reports(ValidateSearch(req), "Take", TakeNotPositive) <==> req.take <= 0
    ensures Reports(ValidateSearch(req), "Take", TakeOutOfRange) <==> req.take > MaxTake
  {
    var skip := Check(req.skip >= 0, "Skip", SkipNegative);
    var takePositive := Check(req.take > 0, "Take", TakeNotPositive);
    var takeBound := Check(req.take <= MaxTake, "Take", TakeOutOfRange);
    var rest := Check(BeValidSortField(req.sortBy), "SortBy", SortByInvalid)
      + Check(CreatedRangeOk(req), "CreatedAfter", CreatedRangeInvalid);
    assert ValidateSearch(req) == skip + takePositive + takeBound + rest;
  }

  /** The SortBy and date-range messages are each reported exactly when their
      rule is violated; the range is checked only when both dates are given. */
  lemma ValidateSearchReportsSortAndRange(req: TodoSearchRequest)
    ensures Reports(ValidateSearch(req), "SortBy", SortByInvalid) <==> !BeValidSortField(req.sortBy)
    ensures Reports(ValidateSearch(req), "CreatedAfter", CreatedRangeInvalid) <==>
      req.createdAfter.Some? && req.createdBefore.Some? && req.createdAfter.value >= req.createdBefore.value
  {
    var front := Check(req.skip >= 0, "Skip", SkipNegative)
      + Check(req.take > 0, "Take", TakeNotPositive)
      + Check(req.take <= MaxTake, "Take", TakeOutOfRange);
    var sortBy := Check(BeValidSortField(req.sortBy), "SortBy", SortByInvalid);
    var range := Check(CreatedRangeOk(req), "CreatedAfter", CreatedRangeInvalid);
    assert ValidateSearch(req) == front + sortBy + range;
  }

  /** A search request with every property at its declared default. */
  function DefaultSearch(): TodoSearchRequest {
    TodoSearchRequest(None, None, None, None, 0, 50, "CreatedAt", true)
  }

  /** The defaults satisfy the validator. */
  lemma DefaultSearchIsValid()
    ensures IsValid(ValidateSearch(DefaultSearch()))
  {
  }

  /** A white-space-only title of any length fails both the required rule and
      the white-space rule. */
  lemma WhiteSpaceTitleRejected(title: string, description: Option<string>)
    requires AllWhiteSpace(title)
    ensures Reports(ValidateCreate(CreateTodoItemRequest(Some(title), description)), "Title", TitleRequired)
    ensures Reports(ValidateCreate(CreateTodoItemRequest(Some(title), description)), "Title", TitleWhiteSpace)
  {
  }

  /** A title of 201 ordinary (Basic Multilingual Plane) characters is too long,
      and one of 200 is not. */
  lemma TitleLengthBoundary(title: string)
    requires forall i :: 0 <= i < |title| ==> title[i] as int <= 0xFFFF
    ensures WithinLength(Some(title), MaxTitleLength) <==> |title| <= 200
  {
    Utf16LengthOfBmp(title);
  }

  /** The length rule counts UTF-16 units, not characters: 101 characters
      beyond U+FFFF take 202 units and fail it. */
  lemma AstralTitleTooLong(title: string)
    requires |title| == 101 && forall i :: 0 <= i < |title| ==> title[i] as int > 0xFFFF
    ensures Reports(TitleRules(Some(title)), "Title", TitleTooLong)
  {
    Utf16LengthOfAstral(title);
  }
}

=== FILE: validation.dfy ===
/** The part of FluentValidation the validators rely on: a failure names the
    property and carries a message, a result is valid when it has no failures,
    and each validator in a rule chain contributes at most one failure. */
module Validation {

  /** FluentValidation's `ValidationFailure` (property name and message). */
  datatype ValidationFailure = ValidationFailure(propertyName: string, errorMessage: string)

  /** `ValidationResult.IsValid`: no rule failed. */
  predicate IsValid(failures: seq<ValidationFailure>) {
    |failures| == 0
  }

  /** One validator of a rule chain: no failure when `ok`, otherwise exactly
      one failure for `property` with `message`. */
  function Check(ok: bool, property: string, message: string): (r: seq<ValidationFailure>)
    ensures ok <==> |r| == 0
    ensures !ok ==> r == [ValidationFailure(property, message)]
    ensures DrawnFrom(r, {ValidationFailure(property, message)}) && NoRepeats(r)
  {
    if ok then [] else [ValidationFailure(property, message)]
  }

  /** Some failure in `failures` is reported against `property`. */
  predicate FailsOn(failures: seq<ValidationFailure>, property: string) {
    exists i :: 0 <= i < |failures| && failures[i].propertyName == property
  }

  /** `failures` reports `message` against `property`. */
  predicate Reports(failures: seq<ValidationFailure>, property: string, message: string) {
    ValidationFailure(property, message) in failures
  }

  /** Every failure is reported against one of `properties`. */
  predicate OnlyOn(failures: seq<ValidationFailure>, properties: set<string>) {
    forall i :: 0 <= i < |failures| ==> failures[i].propertyName in properties
  }

  /** Every failure is one of the `allowed` (property, message) pairs. */
  predicate DrawnFrom(failures: seq<ValidationFailure>, allowed: set<ValidationFailure>) {
    forall i :: 0 <= i < |failures| ==> failures[i] in allowed
  }

  /** No failure is reported twice. */
  predicate NoRepeats(failures: seq<ValidationFailure>) {
    forall i, j :: 0 <= i < j < |failures| ==> failures[i] != failures[j]
  }

  /** Joining the failures of two validators with disjoint vocabularies keeps
      every failure within the joint vocabulary and reports none twice. */
  lemma JoinDistinct(a: seq<ValidationFailure>, b: seq<ValidationFailure>,
                     allowedA: set<ValidationFailure>, allowedB: set<ValidationFailure>)
    requires DrawnFrom(a, allowedA) && NoRepeats(a)
    requires DrawnFrom(b, allowedB) && NoRepeats(b)
    requires allowedA !! allowedB
    ensures DrawnFrom(a + b, allowedA + allowedB)
    ensures NoRepeats(a + b)
  {
    forall i | 0 <= i < |a + b| ensures (a + b)[i] in allowedA + allowedB {
      if i >= |a| {
        assert (a + b)[i] == b[i - |a|];
      }
    }
    forall i, j | 0 <= i < j < |a + b| ensures (a + b)[i] != (a + b)[j] {
      if j < |a| {
        assert (a + b)[i] == a[i] && (a + b)[j] == a[j];
      } else if i >= |a| {
        assert (a + b)[i] == b[i - |a|] && (a + b)[j] == b[j - |a|];
      } else {
        assert (a + b)[i] == a[i] && (a + b)[j] == b[j - |a|];
      }
    }
  }

  /** A concatenation fails on a property when either part does. */
  lemma FailsOnConcat(a: seq<ValidationFailure>, b: seq<ValidationFailure>, property: string)
    ensures FailsOn(a + b, property) <==> FailsOn(a, property) || FailsOn(b, property)
  {
    if FailsOn(a + b, property) {
      var i :| 0 <= i < |a + b| && (a + b)[i].propertyName == property;
      if i >= |a| {
        assert b[i - |a|].propertyName == property;
      }
    }
    if FailsOn(a, property) {
      var i :| 0 <= i < |a| && a[i].propertyName == property;
      assert (a + b)[i].propertyName == property;
    }
    if FailsOn(b, property) {
      var i :| 0 <= i < |b| && b[i].propertyName == property;
      assert (a + b)[|a| + i].propertyName == property;
    }
  }

  /** Two failure lists confined to `properties` stay confined when joined. */
  lemma OnlyOnConcat(a: seq<ValidationFailure>, b: seq<ValidationFailure>, properties: set<string>)
    requires OnlyOn(a, properties) && OnlyOn(b, properties)
    ensures OnlyOn(a + b, properties)
  {
    forall i | 0 <= i < |a + b| ensures (a + b)[i].propertyName in properties {
      if i >= |a| {
        assert (a + b)[i] == b[i - |a|];
      }
    }
  }

  /** A single check fails on exactly its own property, and only when violated. */
  lemma FailsOnCheck(ok: bool, property: string, message: string, other: string)
    ensures FailsOn(Check(ok, property, message), other) <==> !ok && other == property
  {
    if !ok {
      assert Check(ok, property, message)[0].propertyName == property;
    }
  }
}

=== FILE: validation_exception.dfy ===
/** `ValidationException`: a fixed message and an `Errors` dictionary that
    groups failure messages by property name. */
module ValidationExceptions {
  import opened Validation

  const DefaultMessage := "One or more validation failure have occurred"

  datatype ValidationException = ValidationException(message: string, errors: map<string, seq<string>>)

  /** One group of `GroupBy(PropertyName, ErrorMessage)`. */
  datatype Group = Group(key: string, messages: seq<string>)

  /** Reference definition: the messages reported against `property`, in
      failure order. */
  function MessagesFor(failures: seq<ValidationFailure>, property: string): seq<string>
  {
    if |failures| == 0 then []
    else
      var last := failures[|failures| - 1];
      MessagesFor(failures[..|failures| - 1], property)
        + (if last.propertyName == property then [last.errorMessage] else [])
  }

  /** The distinct property names of `failures`. */
  function PropertyNames(failures: seq<ValidationFailure>): set<string> {
    set i | 0 <= i < |failures| :: failures[i].propertyName
  }

  /** The keys of `groups`. */
  function Keys(groups: seq<Group>): set<string> {
    set i | 0 <= i < |groups| :: groups[i].key
  }

  predicate DistinctKeys(groups: seq<Group>) {
    forall i, j :: 0 <= i < j < |groups| ==> groups[i].key != groups[j].key
  }

  /** Total number of messages across groups. */
  function TotalMessages(groups: seq<Group>): nat {
    if |groups| == 0 then 0
    else |groups[0].messages| + TotalMessages(groups[1..])
  }

  /** Adds one failure to the groups built so far: its message joins the
      group of its property, or starts a new group at the end. */
  function AddToGroups(groups: seq<Group>, f: ValidationFailure): (r: seq<Group>)
    requires DistinctKeys(groups)
    ensures |r| == (if f.propertyName in Keys(groups) then |groups| else |groups| + 1)
    ensures forall i :: 0 <= i < |groups| ==> r[i].key == groups[i].key
    ensures forall i :: 0 <= i < |groups| ==>
              r[i].messages == groups[i].messages + (if groups[i].key == f.propertyName then [f.errorMessage] else [])
    ensures |r| == |groups| + 1 ==> r[|groups|] == Group(f.propertyName, [f.errorMessage])
  {
    if |groups| == 0 then [Group(f.propertyName, [f.errorMessage])]
    else
      var head := groups[0];
      assert forall i :: 1 <= i < |groups| ==> groups[i] == groups[1..][i - 1];
      if head.key == f.propertyName then
        [Group(head.key, head.messages + [f.errorMessage])] + groups[1..]
      else
        [head] + AddToGroups(groups[1..], f)
  }

  /** Adding a failure keeps the keys distinct. */
  lemma {:induction false} AddToGroupsDistinct(groups: seq<Group>, f: ValidationFailure)
    requires DistinctKeys(groups)
    ensures DistinctKeys(AddToGroups(groups, f))
  {
    var r := AddToGroups(groups, f);
    forall i, j | 0 <= i < j < |r| ensures r[i].key != r[j].key {
      if j == |groups| {
        assert groups[i].key in Keys(groups);
      }
    }
  }

  /** Adding a failure adds its property to the keys. */
  lemma {:induction false} AddToGroupsKeys(groups: seq<Group>, f: ValidationFailure)
    requires DistinctKeys(groups)
    ensures Keys(AddToGroups(groups, f)) == Keys(groups) + {f.propertyName}
  {
    AddToGroupsKeepsKeys(groups, f);
    AddToGroupsAddsNoOtherKey(groups, f);
  }

  /** Every old key and the failure's property are keys after adding. */
  lemma AddToGroupsKeepsKeys(groups: seq<Group>, f: ValidationFailure)
    requires DistinctKeys(groups)
    ensures Keys(groups) + {f.propertyName} <= Keys(AddToGroups(groups, f))
  {
    var r := AddToGroups(groups, f);
    forall k | k in Keys(groups) ensures k in Keys(r) {
      var i :| 0 <= i < |groups| && groups[i].key == k;
      assert r[i].key == k;
    }
    if f.propertyName !in Keys(groups) {
      assert r[|groups|].key == f.propertyName;
    }
  }

  /** No key other than the failure's property appears by adding. */
  lemma AddToGroupsAddsNoOtherKey(groups: seq<Group>, f: ValidationFailure)
    requires DistinctKeys(groups)
    ensures Keys(AddToGroups(groups, f)) <= Keys(groups) + {f.propertyName}
  {
    var r := AddToGroups(groups, f);
    forall k | k in Keys(r) ensures k in Keys(groups) + {f.propertyName} {
      var i :| 0 <= i < |r| && r[i].key == k;
      if i < |groups| {
        assert groups[i].key == k;
      }
    }
  }

  /** Adding a failure adds exactly one message. */
  lemma {:induction false} AddToGroupsTotal(groups: seq<Group>, f: ValidationFailure)
    requires DistinctKeys(groups)
    ensures TotalMessages(AddToGroups(groups, f)) == TotalMessages(groups) + 1
  {
    if |groups| > 0 {
      var r := AddToGroups(groups, f);
      assert forall i :: 1 <= i < |groups| ==> groups[i] == groups[1..][i - 1];
      if groups[0].key == f.propertyName {
        assert r[1..] == groups[1..];
      } else {
        AddToGroupsTotal(groups[1..], f);
        assert r[1..] == AddToGroups(groups[1..], f);
      }
    }
  }

  /** `GroupBy`: groups in order of each key's first appearance, messages in
      failure order. */
  function GroupBy(failures: seq<ValidationFailure>): (groups: seq<Group>)
    ensures DistinctKeys(groups)
    ensures Keys(groups) == PropertyNames(failures)
    ensures TotalMessages(groups) == |failures|
    ensures forall i :: 0 <= i < |groups| ==> groups[i].messages == MessagesFor(failures, groups[i].key)
  {
    if |failures| == 0 then []
    else
      var front := failures[..|failures| - 1];
      var f := failures[|failures| - 1];
      assert PropertyNames(failures) == PropertyNames(front) + {f.propertyName} by {
        assert failures == front + [f];
      }
      var groups := AddToGroups(GroupBy(front), f);
      AddToGroupsDistinct(GroupBy(front), f);
      AddToGroupsKeys(GroupBy(front), f);
      AddToGroupsTotal(GroupBy(front), f);
      AddToGroupsMessages(GroupBy(front), front, f);
      assert failures == front + [f];
      groups
  }

  /** When every group holds its property's messages so far, it still does
      after one more failure is added. */
  lemma AddToGroupsMessages(groups: seq<Group>, front: seq<ValidationFailure>, f: ValidationFailure)
    requires DistinctKeys(groups) && Keys(groups) == PropertyNames(front)
    requires forall i :: 0 <= i < |groups| ==> groups[i].messages == MessagesFor(front, groups[i].key)
    ensures var r := AddToGroups(groups, f);
            forall i :: 0 <= i < |r| ==> r[i].messages == MessagesFor(front + [f], r[i].key)
  {
    var r := AddToGroups(groups, f);
    var failures := front + [f];
    assert failures[..|failures| - 1] == front;
    forall i | 0 <= i < |r| ensures r[i].messages == MessagesFor(failures, r[i].key) {
      if i == |groups| {
        MessagesForAbsent(front, f.propertyName);
      }
    }
  }

  /** A property that never failed has no messages. */
  lemma {:induction false} MessagesForAbsent(failures: seq<ValidationFailure>, property: string)
    requires property !in PropertyNames(failures)
    ensures MessagesFor(failures, property) == []
  {
    if |failures| > 0 {
      var front := failures[..|failures| - 1];
      assert PropertyNames(front) <= PropertyNames(failures) by {
        forall p | p in PropertyNames(front) ensures p in PropertyNames(failures) {
          var i :| 0 <= i < |front| && front[i].propertyName == p;
          assert failures[i].propertyName == p;
        }
      }
      MessagesForAbsent(front, property);
    }
  }

  /** `ToDictionary`: each group's key maps to its messages. */
  function ToDictionary(groups: seq<Group>): (m: map<string, seq<string>>)
    requires DistinctKeys(groups)
    ensures m.Keys == Keys(groups)
    ensures forall i :: 0 <= i < |groups| ==> m[groups[i].key] == groups[i].messages
  {
    if |groups| == 0 then map[]
    else
      var rest := ToDictionary(groups[1..]);
      assert forall i :: 1 <= i < |groups| ==> groups[i] == groups[1..][i - 1];
      rest[groups[0].key := groups[0].messages]
  }

  /** The parameterless constructor. */
  function NewValidationException(): (e: ValidationException)
    ensures e.message == DefaultMessage
    ensures |e.errors| == 0
  {
    ValidationException(DefaultMessage, map[])
  }

  /** The constructor from failures: the keys are exactly the properties that
      failed, each mapping to that property's messages in failure order, so
      no key maps to an empty array. */
  function FromFailures(failures: seq<ValidationFailure>): (e: ValidationException)
    ensures e.message == DefaultMessage
    ensures e.errors.Keys == PropertyNames(failures)
    ensures forall k :: k in e.errors ==> e.errors[k] == MessagesFor(failures, k)
    ensures forall k :: k in e.errors ==> |e.errors[k]| > 0
  {
    var groups := GroupBy(failures);
    var errors := ToDictionary(groups);
    forall k | k in errors ensures errors[k] == MessagesFor(failures, k) && |errors[k]| > 0 {
      var i :| 0 <= i < |groups| && groups[i].key == k;
      MessagesForPresent(failures, k);
    }
    ValidationException(NewValidationException().message, errors)
  }

  /** A property that failed has at least one message. */
  lemma {:induction false} MessagesForPresent(failures: seq<ValidationFailure>, property: string)
    requires property in PropertyNames(failures)
    ensures |MessagesFor(failures, property)| > 0
  {
    var front := failures[..|failures| - 1];
    var f := failures[|failures| - 1];
    if f.propertyName != property {
      var i :| 0 <= i < |failures| && failures[i].propertyName == property;
      assert front[i].propertyName == property;
      MessagesForPresent(front, property);
    }
  }

  /** Each failure's message is among its property's messages. */
  lemma {:induction false} MessageListed(failures: seq<ValidationFailure>, i: int)
    requires 0 <= i < |failures|
    ensures failures[i].errorMessage in MessagesFor(failures, failures[i].propertyName)
  {
    var front := failures[..|failures| - 1];
    if i < |failures| - 1 {
      assert front[i] == failures[i];
      MessageListed(front, i);
    }
  }

  /** Some key of a non-empty dictionary. */
  ghost function AnyKey(m: map<string, seq<string>>): (k: string)
    requires |m| > 0
    ensures k in m
  {
    var k :| k in m; k
  }

  /** Number of messages held by a dictionary, over all its keys. */
  ghost function MapTotal(m: map<string, seq<string>>): nat
    decreases |m|
  {
    if |m| == 0 then 0
    else
      var k := AnyKey(m);
      assert (m - {k}).Keys == m.Keys - {k};
      |m[k]| + MapTotal(m - {k})
  }

  /** The total does not depend on which key is taken first. */
  lemma {:induction false} MapTotalAt(m: map<string, seq<string>>, k: string)
    requires k in m
    ensures MapTotal(m) == |m[k]| + MapTotal(m - {k})
    decreases |m|
  {
    var j := AnyKey(m);
    assert (m - {j}).Keys == m.Keys - {j};
    if j != k {
      assert (m - {k}).Keys == m.Keys - {k};
      MapTotalAt(m - {j}, k);
      MapTotalAt(m - {k}, j);
      assert m - {j} - {k} == m - {k} - {j};
    }
  }

  /** The groups after the first still have distinct keys, none of them the
      first group's key. */
  lemma DistinctKeysTail(groups: seq<Group>)
    requires |groups| > 0 && DistinctKeys(groups)
    ensures DistinctKeys(groups[1..])
    ensures groups[0].key !in Keys(groups[1..])
  {
    assert forall i :: 0 <= i < |groups| - 1 ==> groups[1..][i] == groups[i + 1];
  }

  /** The dictionary built from groups holds as many messages as the groups. */
  lemma {:induction false} DictionaryTotal(groups: seq<Group>)
    requires DistinctKeys(groups)
    ensures MapTotal(ToDictionary(groups)) == TotalMessages(groups)
  {
    if |groups| > 0 {
      DistinctKeysTail(groups);
      DictionaryTotal(groups[1..]);
      var g, rest := groups[0], ToDictionary(groups[1..]);
      var m := rest[g.key := g.messages];
      assert ToDictionary(groups) == m;
      MapTotalAt(m, g.key);
      assert m - {g.key} == rest;
    }
  }

  /** Every failure's message sits under its property in the exception. */
  lemma FromFailuresKeepsEveryMessage(failures: seq<ValidationFailure>)
    ensures forall i :: 0 <= i < |failures| ==>
      failures[i].errorMessage in FromFailures(failures).errors[failures[i].propertyName]
  {
    var e := FromFailures(failures);
    forall i | 0 <= i < |failures|
      ensures failures[i].errorMessage in e.errors[failures[i].propertyName]
    {
      assert failures[i].propertyName in PropertyNames(failures);
      MessageListed(failures, i);
    }
  }

  /** Nothing is lost or duplicated: the exception's dictionary, summed over
      all its keys, holds exactly as many messages as there were failures. */
  lemma FromFailuresMessageTotal(failures: seq<ValidationFailure>)
    ensures MapTotal(FromFailures(failures).errors) == |failures|
  {
    DictionaryTotal(GroupBy(failures));
  }
}

=== FILE: wrappers.dfy ===
/** Option and Result, the failure-compatible wrappers the rest of the model uses
    for nullable references and for operations that can throw. */
module Wrappers {

  /** A nullable reference: `None` is C#'s `null`. */
  datatype Option<+T> = None | Some(value: T)

  /** The outcome of an operation that either returns a value or throws. */
  datatype Result<+R, +E> = Success(value: R) | Failure(error: E) {

    predicate IsFailure() {
      Failure?
    }

    function PropagateFailure<U>(): Result<U, E>
      requires Failure?
    {
      Failure(error)
    }

    function Extract(): R
      requires Success?
    {
      value
    }
  }
}
